=== FILE: README.md ===
# email_summarizer triage and report flow, in Dafny

A model of the core of `email_summarizer`, a bot that reads a Gmail inbox,
sorts the messages, asks a language model to summarise them and posts a report
to a Discord channel. The model covers the following parts:

- **Grouping** (`Grouping`). `group_emails` tries four categories in order:
  Warhorn and Nextdoor first, which are low priority, then Spouse and
  Daycare, which are high priority and whose patterns come from the
  environment. The first category whose pattern matches an email's sender
  takes the email:
  - a low-priority category only counts it;
  - a high-priority category forwards it;
  - an email that no category matches stays ungrouped.
- **The report** (`Models`). This covers `EmailReport` and its length-only
  `is_empty`.
- **Compiling the report** (`Ai`). One language-model call is made per
  regular email (a summary) and one per high-priority email (next steps).
- **Rendering and the run** (`Controller`):
  - the ordered chat lines a report is sent as;
  - the messages sent and the connection close on every path of
    `put_email_report`.
- **The two prompt templates** (`Prompts`).
- **Gmail message parsing** (`Gmail`): header lookup, body-part selection,
  the 100-character preview and the display text.
- **`safe_dig`** (`General`).
- **Request and response shaping** of the three model clients:
  - Nova (`Nova`);
  - the Anthropic Haiku/Sonnet client (`Anthropic`);
  - the older Sonnet reasoning client (`Sonnet`).

  The Converse call shape and the last-block scan they share are in
  `Converse`, and the model-info derivation is in `ModelInfo`.

Python values (dicts, lists, strings, `None`) are the JSON-like `Json.Value`.
Every exception the code can raise is a `Json.PyError` inside a `Result`.
Environment variables are a `Settings.Env` map.

Several parts are parameters of the operations rather than modelled:

- regular-expression search (`Grouping.Matcher`);
- the language model (`Ai.Generator`, and the `converse` response function of
  the clients). A `Generator` answers a prompt and a system prompt with text,
  with `None`, or with the exception the call raised;
- Base64/UTF-8 decoding (`Gmail.Base64Decoder`);
- Discord channel lookup;
- the outcome of fetching mail;
- the clock, given as a timestamp string.

Each reference definition is written independently of the loop that
computes it. The loops (`Grouping.TallyPass`, `Grouping.CollectGrouped`, `Ai.SummarizeAll`, `Ai.ActOnAll`,
`Converse.ScanContentBlocks`) are proved equal to these definitions by loop
invariants. The properties are then lemmas about the definitions.

## Model

| member | source | states |
|---|---|---|
| Grouping.BuildGroupingCategories | src/email_summarizer/utils/grouping_utils.py:18-48 | Four fresh categories (count 0, no sender) in the order Warhorn, Nextdoor, Spouse, Daycare. Only the last two are high priority, and only their patterns ignore case. Their sources are the two environment values. An unset variable fails with a TypeError, and only then. |
| Grouping.FirstMatch | src/email_summarizer/utils/grouping_utils.py:63-70 | The category an email goes to is the first, in list order, whose pattern matches its sender. No earlier category matches. None means no category matches. |
| Grouping.GroupPass | src/email_summarizer/utils/grouping_utils.py:58-87 | Starting from fresh categories, the two loops produce exactly the reference ungrouped list, high-priority list and grouped list. |
| Grouping.TallyPass | src/email_summarizer/utils/grouping_utils.py:62-72 | The first loop leaves each category with the reference tally of its first-match emails, and builds exactly the reference high-priority and ungrouped lists. |
| Grouping.CollectGrouped | src/email_summarizer/utils/grouping_utils.py:75-82 | From the tallied categories, the second loop builds exactly the reference grouped list: one entry per low-priority category with a positive count, in category order. |
| Grouping.GroupEmails | src/email_summarizer/utils/grouping_utils.py:57-87 | `group_emails` fails iff a regex variable is unset. Otherwise it returns the three reference lists over the built categories. |
| Grouping.UnmatchedIff | src/email_summarizer/utils/grouping_utils.py:63-72 | An email is ungrouped iff it is in the input and no category matches its sender. |
| Grouping.UrgentIff | src/email_summarizer/utils/grouping_utils.py:64-70 | An email is high priority iff it is in the input and its first matching category is high priority. |
| Grouping.UngroupedAndUrgentDisjoint | src/email_summarizer/utils/grouping_utils.py:62-72 | No email is both ungrouped and high priority. |
| Grouping.OutputsAreSubsequences | src/email_summarizer/utils/grouping_utils.py:62-72 | The ungrouped and the high-priority lists are subsequences of the input, in input order. |
| Grouping.EachEmailOnce | src/email_summarizer/utils/grouping_utils.py:62-72 | Every input email lands in exactly one bucket: low-priority count, high-priority list or ungrouped list. |
| Grouping.GroupedSumIsLowSum | src/email_summarizer/utils/grouping_utils.py:75-82 | The grouped entries' counts add up to the matches of the low-priority categories. Zero-count categories are skipped. |
| Grouping.LowSumIsRoutine | src/email_summarizer/utils/grouping_utils.py:62-70 | Counting per low-priority category gives the same total as counting emails whose first match is low priority. |
| Grouping.Partition | src/email_summarizer/utils/grouping_utils.py:62-82 | The sum of grouped counts, plus the high-priority length, plus the ungrouped length, equals the number of emails. |
| Grouping.FirstSenderIsFirst | src/email_summarizer/utils/grouping_utils.py:66-67 | A category records a sender iff it matched some email. The sender recorded is that of the earliest email whose first match is the category. |
| Grouping.GroupedCountsPositive | src/email_summarizer/utils/grouping_utils.py:76 | Every grouped entry has a positive count. |
| Grouping.NothingToGroup | src/email_summarizer/utils/grouping_utils.py:57-87 | No emails give three empty lists. |
| Grouping.BuiltinsWinTies | src/email_summarizer/utils/grouping_utils.py:28-33 | A sender the Nextdoor pattern matches is counted as low priority, even if the Spouse or Daycare pattern also matches it. |
| Grouping.BuiltGroupedLines | src/email_summarizer/utils/grouping_utils.py:75-82 | With the built categories, the grouped list is at most the Warhorn entry followed by the Nextdoor entry. |
| Models.EmailReport.IsEmpty | src/email_summarizer/models/report.py:16-21 | A report is empty iff none of its three lists has an element. |
| Models.ZeroCountGroupIsNotEmpty | src/email_summarizer/models/report.py:19 | A report whose only content is a grouped entry with count 0 is not empty. |
| Models.IsEmptyIgnoresHeader | src/email_summarizer/models/report.py:16-21 | Emptiness does not depend on the account or the timestamp. |
| Models.AddingMakesNonEmpty | src/email_summarizer/models/report.py:17-21 | Appending to any one of the three lists makes a report non-empty. |
| Prompts.EmailToPrompt | src/email_summarizer/utils/email_utils.py:4-12 | The tagged prompt of email_utils.py. `Prompts.TaggedPromptTags`, `Prompts.TaggedPromptIsLines` and `Prompts.TaggedPromptRoundTrip` state what it contains and that it reads back. |
| Prompts.TaggedPromptTags | src/email_summarizer/utils/email_utils.py:6-11 | The tagged prompt contains `<sender>`sender`</sender>`, `<subject>`subject - snippet`</subject>`, and a `<body>` block holding the body or the text "None". |
| Prompts.TaggedPromptIsLines | src/email_summarizer/utils/email_utils.py:4-12 | The tagged prompt is eight lines joined by newlines. The sender line comes before the subject line, which comes before the body. |
| Prompts.TaggedPromptRoundTrip | src/email_summarizer/utils/email_utils.py:4-12 | Sender, "subject - snippet" and body (or "None") can be read back from the tagged prompt when none spans lines. |
| Prompts.AiEmailToPrompt | src/email_summarizer/utils/ai_utils.py:19-27 | The plain prompt of ai_utils.py. `Prompts.PlainPromptIsLines` and `Prompts.PlainPromptRoundTrip` state its lines and that it reads back. |
| Prompts.PlainPromptIsLines | src/email_summarizer/utils/ai_utils.py:19-27 | The plain prompt of ai_utils.py is eight lines in the same order, with the body between `<body>` and `</body>`. |
| Prompts.PlainPromptRoundTrip | src/email_summarizer/utils/ai_utils.py:19-27 | The same read-back holds for the plain prompt. |
| Ai.BuildSummary | src/email_summarizer/utils/ai_utils.py:30-33 | The summary's body is the model's answer to the email's prompt under the summary system prompt, and its email is the input. It succeeds exactly when the call returns text. An exception from the call propagates unchanged; a `None` answer fails validation of `body`. |
| Ai.BuildActionableEmail | src/email_summarizer/utils/ai_utils.py:36-41 | The same with the next-steps system prompt, filling `next_steps`: success exactly when the call returns text, the call's exception propagates, and `None` fails validation of `next_steps`. |
| Ai.AskedPromptsCarryEmails | src/email_summarizer/utils/ai_utils.py:31 | Each prompt sent to the model carries its email's sender, subject line and body, which can be read back. |
| Ai.SummarizeAll | src/email_summarizer/utils/ai_utils.py:53-55 | On success there is one summary per email, summary i built from email i, and the calls are one per email in order. It succeeds whenever every email has a summary answer, and on success every call was answered. On failure the calls are the planned calls up to and including the first unanswered one, every earlier call was answered, and the error is that call's exception or the `body` validation error. |
| Ai.ActOnAll | src/email_summarizer/utils/ai_utils.py:58-60 | The same for next steps over the high-priority emails, with `next_steps` as the failing field. |
| Ai.CompileEmailReport | src/email_summarizer/utils/ai_utils.py:44-67 | A Haiku client error fails with no calls. The account, timestamp and grouped list pass through. `summaries[i]` is the summary of `emails[i]`. `actionable_emails[i]` is built from `high_priority_emails[i]`. The calls are exactly one per email, summaries first, in list order, \|emails\| + \|high_priority\| in all. The report is empty iff all three inputs are. It succeeds when the client builds and every answer exists. When the client builds but compilation fails, the calls are the planned ones (summaries, then next steps) up to and including the first unanswered call, and the error is what that call raised, or the validation error of `body` for a summary call and of `next_steps` for a next-steps call. |
| General.SafeDig | src/email_summarizer/utils/general_utils.py:10-20 | An empty key list returns the data unchanged. |
| General.SafeDigFound | src/email_summarizer/utils/general_utils.py:11-14 | When every key is present along the path, the result is the value reached by following the keys. |
| General.SafeDigMissing | src/email_summarizer/utils/general_utils.py:11-19 | At the first missing key the result is fixed and keys after it never matter. With `error_on_missing`, it is ValueError "Key k1.….kN not found in data", naming the keys up to and including the missing one. Otherwise it is the default. |
| Converse.Conversation | src/email_summarizer/services/anthropic_client.py:124-129 | The conversation is one user turn whose single content block's text is the prompt. |
| Converse.ReasoningConfig | src/email_summarizer/services/sonnet_client.py:104-109 | The additional fields are exactly `thinking`, with type "enabled" and `budget_tokens` equal to the budget. |
| Converse.ContentBlocks | src/email_summarizer/services/anthropic_client.py:153 | The blocks are those at output.message.content. A response without "output" raises KeyError("output"). |
| Converse.ReasoningTextOf | src/email_summarizer/services/anthropic_client.py:160 | A block's reasoning text is read iff the path reasoningContent.reasoningText.text exists, and it is the value found there. |
| Converse.ScanContentBlocks | src/email_summarizer/services/anthropic_client.py:155-164 | The scan succeeds on well-formed blocks. Its result is the text of the last block with "text" and the reasoning of the last block with "reasoningContent", each absent when there is no such block. |
| ModelInfo.Provider | src/email_summarizer/services/anthropic_client.py:200 | "Anthropic" iff the lower-cased id contains "anthropic", and "Unknown" otherwise. |
| ModelInfo.Version | src/email_summarizer/services/anthropic_client.py:201 | "Unknown" when the id has no "-". Otherwise the result is a "-"-free tail of the id that follows a "-". |
| ModelInfo.VersionAfterLastDash | src/email_summarizer/services/anthropic_client.py:201 | The version is exactly the segment after the last "-". |
| ModelInfo.ProviderIgnoresCase | src/email_summarizer/services/anthropic_client.py:200 | The provider is the same for an id and its lower-cased form. |
| ModelInfo.Describe | src/email_summarizer/services/anthropic_client.py:196-202 | The described id is the given one, else the default. With neither it fails calling `lower` on None. The region, provider and version are those of that id. |
| Anthropic.GetModelId | src/email_summarizer/services/anthropic_client.py:27-34 | No model name gives None. A model name reads its variable, and an unset one raises KeyError naming it. |
| Anthropic.NewClient | src/email_summarizer/services/anthropic_client.py:65-72 | The region is the argument, else AWS_REGION; if both are missing it raises KeyError("AWS_REGION"). The profile is the argument, else "data_reply". An explicit id always gives a client. Otherwise the model's id variable is read: no model name raises ValueError, an unset variable raises KeyError naming it, and an empty value raises ValueError. A non-empty value gives a client with that id. |
| Anthropic.HaikuClient | src/email_summarizer/services/anthropic_client.py:65-72 | The Haiku client that compile_email_report builds exists iff AWS_REGION and a non-empty HAIKU_MODEL_ID are set. |
| Anthropic.SystemParameter | src/email_summarizer/services/anthropic_client.py:131-136 | The system parameter is `[{"text": system_prompt}]` iff the system prompt is non-empty, and None otherwise. |
| Anthropic.BuildRequest | src/email_summarizer/services/anthropic_client.py:122-151 | The model id is the argument, else the default, and is never empty for a built client. The request carries a one-turn conversation with the prompt, the temperature, the system parameter and the extra fields. |
| Anthropic.OptionalString | src/email_summarizer/services/anthropic_client.py:37-39 | A `ModelResponse` field accepts a string or None and rejects anything else. |
| Anthropic.InvokeModel | src/email_summarizer/services/anthropic_client.py:97-174 | It sends the built request. A missing content path propagates the KeyError. On success the response is the last "text" block and the reasoning the last "reasoningContent" block. It succeeds whenever the blocks are readable and those values are strings. |
| Anthropic.InvokeReasoning | src/email_summarizer/services/anthropic_client.py:176-184 | The request uses the default id, no system prompt, and a thinking config with the given budget. |
| Anthropic.GetModelInfo | src/email_summarizer/services/anthropic_client.py:186-202 | The id is the target, else the default. The region is the client's. The provider and version are those of the id. |
| Sonnet.NewClient | src/email_summarizer/services/sonnet_client.py:44-46 | The region is the argument, else the AWS_REGION setting. The profile is the argument, else "data_reply". The default id is the argument, else the SONNET_MODEL_ID setting, and None when that is unset. |
| Sonnet.BuildRequest | src/email_summarizer/services/sonnet_client.py:95-123 | The id is the argument, else the default. The request has one user turn with the prompt, thinking enabled with the given budget, and the temperature. |
| Sonnet.InvokeReasoning | src/email_summarizer/services/sonnet_client.py:71-146 | A KeyError on the content path propagates. Otherwise the result is the last-wins reasoning and text, each None when absent. |
| Sonnet.GetModelInfo | src/email_summarizer/services/sonnet_client.py:148-164 | It fails iff neither the argument nor the default id exists. Otherwise the id, region, provider and version follow the same rules. |
| Nova.SystemList | src/email_summarizer/services/nova_client.py:24 | The system text is the system prompt, or "" when it is absent or empty. |
| Nova.InferenceConfig | src/email_summarizer/services/nova_client.py:26-31 | The config carries the client's maxTokens and temperature, and the fixed topP 0.7 and topK 20. |
| Nova.BuildRequestBody | src/email_summarizer/services/nova_client.py:32-37 | The body has exactly the four keys schemaVersion, messages, system and inferenceConfig, and schemaVersion is "messages-v1". |
| Nova.RequestBodyMessages | src/email_summarizer/services/nova_client.py:25 | The messages are a one-turn user conversation, and the text at messages[0].content[0] is the prompt. |
| Nova.RequestBodySystem | src/email_summarizer/services/nova_client.py:24 | The text at system[0] is the system prompt, or "" when it is absent or empty. |
| Nova.RequestBodyConfig | src/email_summarizer/services/nova_client.py:26-31 | The inference config carries the client's maxTokens and temperature, topP 0.7 and topK 20. |
| Nova.ParseResponseFirstBlock | src/email_summarizer/services/nova_client.py:42-53 | With a non-empty content list, the response is the "text" of the first block. |
| Nova.ParseResponseEmpty | src/email_summarizer/services/nova_client.py:42-51 | A `content` that is present but falsy (None, [], "", {}, 0, False) raises ValueError "Empty content found in Nova response". |
| Nova.ParseResponseMissing | src/email_summarizer/services/nova_client.py:42-49 | A missing key on output.message.content raises the safe_dig ValueError naming the path up to that key. |
| Nova.GetClient | src/email_summarizer/services/nova_client.py:62-70 | The first call builds a client with NOVA_INFERENCE_PROFILE, temperature 0.4 and max_tokens 1000, and stores it. Later calls return the stored client. |
| Nova.GetClientMemoises | src/email_summarizer/services/nova_client.py:62-70 | Calling again after a call returns the same client and leaves the factory unchanged, whatever the arguments. |
| Gmail.FindHeader | src/email_summarizer/services/gmail.py:277-288 | A header field is the value of the first header whose lower-cased name matches, or the default when none does. Readable headers never fail. |
| Gmail.ExtractHeaders | src/email_summarizer/services/gmail.py:271-290 | A falsy message, one without "payload", or a dict payload without "headers" gives "No Subject", "No Sender" and "No Date". When the payload holds a list of headers, each field is looked up in it, and the result exists iff the three lookups succeed. |
| Gmail.BodyData | src/email_summarizer/services/gmail.py:312 | A part's data is `part.get("body", {}).get("data")`. |
| Gmail.ScanParts | src/email_summarizer/services/gmail.py:310-318 | The result is the data of the first text/plain or text/html part with non-empty data, or None when no part qualifies. |
| Gmail.ExtractBodyData | src/email_summarizer/services/gmail.py:302-303 | A falsy message or one without "payload" has no body data. |
| Gmail.MultipartBody | src/email_summarizer/services/gmail.py:308-318 | A multipart payload yields the parts scan and never falls back to `payload.body`. |
| Gmail.SimpleBody | src/email_summarizer/services/gmail.py:320-324 | A payload without parts yields `body.data`, or None when there is no body. |
| Gmail.DecodeBody | src/email_summarizer/services/gmail.py:336-344 | Falsy data decodes to None. Non-empty string data gives the decoder's answer on that string. Any other value fails inside the `try` and gives None. |
| Gmail.Preview | src/email_summarizer/services/gmail.py:376-379 | A preview exists iff the decoded text is non-empty. It is the whole text when that has at most 100 characters, and exactly its first 100 characters otherwise. |
| Gmail.BuildEmailFromMessage | src/email_summarizer/services/gmail.py:371-387 | Building succeeds iff the message is a dict, its headers and body data can be read, the three header values are strings, and its snippet is a string or absent. The id is msg_id. The subject, sender and date come from the headers. The snippet is the message's, or "No snippet available.". The preview is the truncated decoded body data. |
| Gmail.PreviewIsBoundedPrefix | src/email_summarizer/services/gmail.py:375-379 | A built email's preview is a non-empty prefix, of at most 100 characters, of the decoded body: all of it when it is short, and exactly its first 100 characters otherwise. |
| Gmail.MessageWithoutPayload | src/email_summarizer/services/gmail.py:371-387 | A message without payload becomes an email with default headers and no preview. |
| Gmail.InfoLines | src/email_summarizer/services/gmail.py:357-366 | There are six display lines when the preview is non-empty, and five otherwise. |
| Gmail.FormatMessageInfo | src/email_summarizer/services/gmail.py:347-368 | The display text: the info lines joined by newlines. `Gmail.InfoLines` states their number and `Gmail.FormatMessageInfoLines` states that they read back in order. |
| Gmail.FormatMessageInfoLines | src/email_summarizer/services/gmail.py:357-368 | Split at newlines, the display text gives back "ID:", "Subject:", "From:", "Date:" and "Snippet:" lines in that order. It then has a "Body (first 100 chars): …..." line iff the preview is non-empty. |
| Controller.AnyGroupedEmails | src/email_summarizer/controllers/alphonse_controller.py:103-104 | True iff some grouped entry has a positive count. |
| Controller.Header | src/email_summarizer/controllers/alphonse_controller.py:10-11 | The report header, "# <account> Email Report <timestamp>". `Controller.RenderEmptyReport` states that every rendering opens with it. |
| Controller.Render | src/email_summarizer/controllers/alphonse_controller.py:55-83 | The lines a report is sent as, with the high-priority section reading `actionable_emails`. `Controller.RenderEmptyReport`, `Controller.RenderLayout` and `Controller.RenderNumbering` state its shape. |
| Controller.RenderEmptyReport | src/email_summarizer/controllers/alphonse_controller.py:55-57 | Every rendering starts with the header. A report renders as exactly [header, "*No emails to report.*"] iff it is empty. |
| Controller.RenderLayout | src/email_summarizer/controllers/alphonse_controller.py:55-83 | A non-empty report renders in this fixed order: the header; the high-priority items, numbered from 1, then their placeholder; the regular items, numbered from 1, then their placeholder; then either the grouped heading with one line per entry (zero counts included), or the no-grouped line. |
| Controller.RenderHighPriority | src/email_summarizer/controllers/alphonse_controller.py:59-65 | After the header come the high-priority items numbered from 1, then the high-priority placeholder. |
| Controller.RenderRegular | src/email_summarizer/controllers/alphonse_controller.py:67-73 | Next come the regular items numbered from 1, then the regular placeholder. |
| Controller.RenderGrouped | src/email_summarizer/controllers/alphonse_controller.py:75-83 | Last comes the grouped heading with one line per entry when some entry has a positive count, and otherwise the single no-grouped line. |
| Controller.ItemNumberOf | src/email_summarizer/controllers/alphonse_controller.py:62 | An item line gives back the number it was written with. |
| Controller.GroupedLineCountOf | src/email_summarizer/controllers/alphonse_controller.py:80 | A grouped line gives back its count, whatever the sender. |
| Controller.RenderNumbering | src/email_summarizer/controllers/alphonse_controller.py:60-71 | The two item sections sit at fixed slices, and item i of each reads back as number i+1. |
| Controller.AsWrittenLosesNonEmptyReports | src/email_summarizer/controllers/alphonse_controller.py:55-65 | As written, an empty report is sent in full. A non-empty one sends only the header, then raises AttributeError. |
| Controller.ReportFetched | src/email_summarizer/controllers/alphonse_controller.py:43-84 | With fetched emails, the connection is closed exactly once, last. A failed grouping or compilation closes and sends nothing. A compiled report is sent as its rendering; its grouped list is the reference grouping, its summaries are for the ungrouped emails in order, and its next steps for the high-priority ones in order. It is compiled whenever the grouping and the Haiku client build and every answer exists. |
| Controller.PutEmailReport | src/email_summarizer/controllers/alphonse_controller.py:32-100 | A non-integer channel id sends nothing and closes nothing. Otherwise the connection is closed exactly once, last. A missing channel, a failed fetch or a failed grouping closes and sends nothing, and so does a failed compilation of fetched emails. Unavailable mail sends only the error line. A compiled report is sent as its rendering; it is built from the grouping of the fetched emails (summaries for the ungrouped, next steps for the high priority). It is compiled whenever every step succeeds. |
| Controller.BindKeywords | src/email_summarizer/utils/ai_utils.py:44-49 | A call to a function with only required parameters binds iff the keywords given are exactly its parameters. |
| Controller.RunWithKeywords | src/email_summarizer/controllers/alphonse_controller.py:32-100 | The run as written, for the keywords passed to `compile_email_report`. Keywords that do not bind make a fetched batch only close, and a failed compilation closes and sends nothing. Binding keywords and a compiled report send exactly what `RenderAsWritten` sends, then close. The report compiles whenever every step succeeds. The connection is closed exactly once, last, after any integer channel id. |
| Controller.ControllerKeywordsDoNotBind | src/email_summarizer/controllers/alphonse_controller.py:47-52 | The keywords the controller passes do not bind to the parameters of `compile_email_report`, and binding raises TypeError. |
| Controller.PutEmailReportAsWritten | src/email_summarizer/controllers/alphonse_controller.py:32-100 | As written, a run that finds its channel and fetches emails only closes the connection. Unavailable mail sends the error line and closes. A missing channel only closes. A non-integer id does nothing. |

## Left out

- Gmail access is out of scope: OAuth, credentials, `list_messages`, `get_message_details`, `list_emails` and `read_emails`. The fetch is the `Controller.FetchOutcome` parameter.
- Base64 and UTF-8 decoding are the `Gmail.Base64Decoder` parameter, and a decoding failure is its `None`.
- boto3 session and client creation, and the Bedrock network call, are out of scope. Each client takes a `converse` response function instead.
- Discord I/O, `print` and logging are out of scope. Sending is modelled as an `Effect` list. A `channel.send` that raises (the `Forbidden` path) is not modelled.
- The regular-expression language is out of scope: a `Pattern` keeps its source and its case flag, and search is the `Matcher` parameter. `re.compile` errors on an invalid pattern are not modelled, so only an unset variable fails.
- The clock and the America/New_York timestamp format are out of scope; the timestamp is a string parameter.
- Floating-point temperature and topP are exact reals.
- `str.lower` maps ASCII letters only. This is exact for the header names compared and for "anthropic".
- Python `int()` also accepts a leading "+", surrounding whitespace, underscores and non-ASCII Unicode decimal digits. The channel id is read as an optional minus sign followed by ASCII digits only.
- Headers, parts and the Converse content blocks are iterated as lists or strings. Python iterates a dict in their place by its keys (a `content` of `{}` gives no text and no reasoning); the model raises TypeError instead.
- Nova reads the response body with `json.loads(response["body"].read())`. The model starts from the decoded body value.
- Nova.ParseResponse: has no contract of its own. Its behaviour is stated by `Nova.ParseResponseFirstBlock`, `Nova.ParseResponseEmpty` and `Nova.ParseResponseMissing`, which cover each branch of the source.
- Controller.RenderAsWritten: has no contract of its own; `Controller.AsWrittenLosesNonEmptyReports` states it.
- Anthropic.InvokeModel: does not model a `ClientError` from Bedrock, because the call is an abstract total function. The report flow's `Ai.Generator` does carry an exception raised by the model call.
- Out-of-scope files:
  - PII redaction, the static prompt texts, `Email.__str__`, the views and `models/high_priority.py`;
  - the entry points (`app.py`, `lambda_function.py`, the CLI);
  - the DeepSeek client and `base_model_client.invoke`.

  They are outside the triage flow, and none of them is called by it.
- The guard `assert` statements of `put_email_report` (alphonse_controller.py:24-27) are not modelled: the model's parameters are never `None`. A failing guard raises `AssertionError` before the `try`, so nothing would be sent and nothing closed.
- Nova.PyFirst: indexing a dict with `[0]` raises `KeyError(0)` in Python; the model's `KeyError` carries the string "0", because its key field is a string.
- `max_emails` only limits the fetch, which is a parameter, so it is not modelled.

### Where the code and its tests or imports disagree

- **Placeholder lines.** In `put_email_report`, the high-priority and regular sections use `for … else` with no `break` (alphonse_controller.py:60-65, 68-73). The placeholder line is therefore sent after the items every time. `Controller.Render` follows the code. tests/controllers/alphonse_controller_test.py:168-175 expects a placeholder only for an empty section.
- **Imports.** The controller imports `get_emails` and `EmailUnavailableError` from `utils/email_utils.py` (alphonse_controller.py:6). That file does not define them; `utils/gmail_utils.py` does. The model takes the fetch outcome as a parameter, as if the import named the right module.
- **Nova client.** `nova_client.py` returns a `BaseModelResponse` and subclasses a `BaseModelClient` whose constructor takes neither `temperature` nor `max_tokens` (base_model_client.py:9). The factory passes both, so as written the construction raises TypeError. `nova_client.py` also imports `AbastractModelResponse` and `BaseModelResponse` (nova_client.py:5-9), which base_model_client.py does not define, so as written importing the module fails. The model follows what `nova_client.py` evidently intends: a client holding the four values, and a response that is the text.
- **Generator answers.** In `compile_email_report`, a model answer that is `None` fails pydantic validation of `Summary.body` or `ActionableEmail.next_steps`. The model gives this a `ValidationError` naming the field. An exception raised by the model call itself is passed through unchanged, and no later call is made.

## Findings

| source | as written | input that shows it | evidently intended | confidence | as-written member | corrected member |
|---|---|---|---|---|---|---|
| src/email_summarizer/controllers/alphonse_controller.py:60 | The high-priority section iterates `email_report.high_priority_summaries`, a field `EmailReport` does not have. | Any non-empty report, e.g. one with a single summary. The header is sent, then AttributeError is raised and caught, so nothing else is sent. | Iterate `email_report.actionable_emails` (report.py:14), which holds the next steps. | not executed | Controller.RenderAsWritten (outcome stated by Controller.AsWrittenLosesNonEmptyReports) | Controller.Render (layout stated by Controller.RenderLayout) |
| src/email_summarizer/controllers/alphonse_controller.py:47-52 | `compile_email_report` is called with `important_emails=`, but its parameter is `high_priority_emails` (ai_utils.py:44-49). | Any run that fetches emails: binding raises TypeError, which is caught, so only the close happens. | Pass the high-priority list as `high_priority_emails=`. | not executed | Controller.PutEmailReportAsWritten (the flow is Controller.RunWithKeywords; the failed binding is Controller.ControllerKeywordsDoNotBind) | Controller.PutEmailReport |

=== FILE: ai.dfy ===
/** Report compilation (src/email_summarizer/utils/ai_utils.py): one model
    call per email, a summary for each regular email and next steps for each
    high-priority one, gathered into an `EmailReport`. The language model
    and the clock are parameters. */
module Ai {
  import opened Wrappers
  import opened Json
  import opened Settings
  import opened Models
  import opened Prompts
  import Anthropic

  /** `client.invoke_model(prompt=…, system_prompt=…).response` on the Haiku
      client: the answer text, `None` when the answer carried none, or the
      exception the call raised (a `KeyError` on a malformed answer, a
      Bedrock `ClientError`). */
  type Generator = (string, string) -> Result<Option<string>, PyError>

  /** The call returned an answer text. */
  predicate Answered(gen: Generator, prompt: string, system: string) {
    gen(prompt, system).Ok? && gen(prompt, system).value.Some?
  }

  /** The two system prompts; their text is not part of the model. */
  datatype SystemPrompts = SystemPrompts(summary: string, nextSteps: string)

  /** One model call: the prompt and the system prompt it was given. */
  datatype Invocation = Invocation(prompt: string, system: string)

  /** `build_summary(client, email)`: the model's answer to the email's
      prompt under the summary system prompt, paired with the email itself.
      An exception from the call passes through; a missing answer fails the
      `body: str` validation. */
  function BuildSummary(gen: Generator, sys: SystemPrompts, e: Email): (r: Result<Summary, PyError>)
    ensures r.Ok? <==> Answered(gen, AiEmailToPrompt(e), sys.summary)
    ensures r.Ok? ==> r.value.email == e && r.value.body == gen(AiEmailToPrompt(e), sys.summary).value.value
    ensures gen(AiEmailToPrompt(e), sys.summary).Err? ==> r == Err(gen(AiEmailToPrompt(e), sys.summary).error)
    ensures gen(AiEmailToPrompt(e), sys.summary) == Ok(None) ==> r == Err(ValidationError("body"))
  {
    match gen(AiEmailToPrompt(e), sys.summary)
    case Err(error) => Err(error)
    case Ok(Some(text)) => Ok(Summary(text, e))
    case Ok(None) => Err(ValidationError("body"))
  }

  /** `build_actionable_email(client, email)`: the same with the next-steps
      system prompt, filling `next_steps`. */
  function BuildActionableEmail(gen: Generator, sys: SystemPrompts, e: Email): (r: Result<ActionableEmail, PyError>)
    ensures r.Ok? <==> Answered(gen, AiEmailToPrompt(e), sys.nextSteps)
    ensures r.Ok? ==> r.value.email == e && r.value.nextSteps == gen(AiEmailToPrompt(e), sys.nextSteps).value.value
    ensures gen(AiEmailToPrompt(e), sys.nextSteps).Err? ==> r == Err(gen(AiEmailToPrompt(e), sys.nextSteps).error)
    ensures gen(AiEmailToPrompt(e), sys.nextSteps) == Ok(None) ==> r == Err(ValidationError("next_steps"))
  {
    match gen(AiEmailToPrompt(e), sys.nextSteps)
    case Err(error) => Err(error)
    case Ok(Some(text)) => Ok(ActionableEmail(e, text))
    case Ok(None) => Err(ValidationError("next_steps"))
  }

  /** The calls made for a list of emails under one system prompt, in order. */
  function Asked(es: seq<Email>, system: string): (calls: seq<Invocation>)
    ensures |calls| == |es|
    ensures forall i :: 0 <= i < |es| ==> calls[i] == Invocation(AiEmailToPrompt(es[i]), system)
  {
    seq(|es|, i requires 0 <= i < |es| => Invocation(AiEmailToPrompt(es[i]), system))
  }

  /** What a call that gave no answer text raises: its own exception, or
      the validation error of the field its answer was to fill. */
  function CallError(gen: Generator, call: Invocation, field: string): PyError {
    if gen(call.prompt, call.system).Err? then gen(call.prompt, call.system).error else ValidationError(field)
  }

  /** Every call of the list gave an answer text. */
  predicate AllAnswered(gen: Generator, calls: seq<Invocation>) {
    forall j :: 0 <= j < |calls| ==> Answered(gen, calls[j].prompt, calls[j].system)
  }

  /** The calls follow `plan` in order and stop at the first one that gave
      no answer text. */
  predicate StoppedAt(gen: Generator, calls: seq<Invocation>, plan: seq<Invocation>) {
    0 < |calls| <= |plan| && calls == plan[..|calls|]
    && AllAnswered(gen, calls[..|calls| - 1])
    && !Answered(gen, calls[|calls| - 1].prompt, calls[|calls| - 1].system)
  }

  /** A run that stopped within a plan also stopped within any longer plan. */
  lemma StoppedWithin(gen: Generator, calls: seq<Invocation>, plan: seq<Invocation>, more: seq<Invocation>)
    requires StoppedAt(gen, calls, plan)
    ensures StoppedAt(gen, calls, plan + more)
  {
    assert (plan + more)[..|calls|] == plan[..|calls|];
  }

  /** Answered calls followed by a run that stopped within the rest of the
      plan stopped within the whole plan. */
  lemma StoppedAfter(gen: Generator, done: seq<Invocation>, calls: seq<Invocation>, plan: seq<Invocation>)
    requires AllAnswered(gen, done) && StoppedAt(gen, calls, plan)
    ensures StoppedAt(gen, done + calls, done + plan)
  {
    var all := done + calls;
    assert all[..|all| - 1] == done + calls[..|calls| - 1];
    assert (done + plan)[..|all|] == done + plan[..|calls|];
    assert all[|all| - 1] == calls[|calls| - 1];
  }

  /** The prompt of every call can be read back into the sender, the
      "subject - snippet" line and the body of the email it was made for. */
  lemma AskedPromptsCarryEmails(es: seq<Email>, system: string, i: nat)
    requires i < |es|
    requires SingleLine(es[i].sender) && SingleLine(es[i].subject) && SingleLine(es[i].snippet)
    requires SingleLine(PyStr(es[i].bodyPreview))
    ensures ParsePrompt(PlainLayout, Asked(es, system)[i].prompt) == Some(FieldsOf(es[i]))
  {
    PlainPromptRoundTrip(es[i]);
  }

  /** The loop over the regular emails: one summary call per email, in
      order, stopping at the first missing answer. */
  method SummarizeAll(es: seq<Email>, gen: Generator, sys: SystemPrompts)
    returns (r: Result<seq<Summary>, PyError>, calls: seq<Invocation>)
    ensures r.Ok? ==> |r.value| == |es|
    ensures r.Ok? ==> forall i :: 0 <= i < |es| ==> BuildSummary(gen, sys, es[i]) == Ok(r.value[i])
    ensures r.Ok? ==> calls == Asked(es, sys.summary)
    ensures r.Ok? ==> AllAnswered(gen, calls)
    ensures r.Err? ==> StoppedAt(gen, calls, Asked(es, sys.summary)) && r.error == CallError(gen, calls[|calls| - 1], "body")
    ensures (forall i :: 0 <= i < |es| ==> Answered(gen, AiEmailToPrompt(es[i]), sys.summary)) ==> r.Ok?
  {
    calls := [];
    var summaries: seq<Summary> := [];
    var i := 0;
    while i < |es|
      invariant 0 <= i <= |es|
      invariant |summaries| == i
      invariant forall k :: 0 <= k < i ==> BuildSummary(gen, sys, es[k]) == Ok(summaries[k])
      invariant calls == Asked(es[..i], sys.summary)
      invariant AllAnswered(gen, calls)
    {
      calls := calls + [Invocation(AiEmailToPrompt(es[i]), sys.summary)];
      var s := BuildSummary(gen, sys, es[i]);
      if s.Err? {
        assert calls == Asked(es[..i + 1], sys.summary) by {
          assert es[..i + 1] == es[..i] + [es[i]];
        }
        assert Asked(es[..i + 1], sys.summary) == Asked(es, sys.summary)[..i + 1];
        assert calls[..|calls| - 1] == Asked(es[..i], sys.summary);
        return Err(s.error), calls;
      }
      summaries := summaries + [s.value];
      i := i + 1;
    }
    assert es[..i] == es;
    return Ok(summaries), calls;
  }

  /** The loop over the high-priority emails: one next-steps call per email,
      in order, stopping at the first missing answer. */
  method ActOnAll(es: seq<Email>, gen: Generator, sys: SystemPrompts)
    returns (r: Result<seq<ActionableEmail>, PyError>, calls: seq<Invocation>)
    ensures r.Ok? ==> |r.value| == |es|
    ensures r.Ok? ==> forall i :: 0 <= i < |es| ==> BuildActionableEmail(gen, sys, es[i]) == Ok(r.value[i])
    ensures r.Ok? ==> calls == Asked(es, sys.nextSteps)
    ensures r.Ok? ==> AllAnswered(gen, calls)
    ensures r.Err? ==> StoppedAt(gen, calls, Asked(es, sys.nextSteps)) && r.error == CallError(gen, calls[|calls| - 1], "next_steps")
    ensures (forall i :: 0 <= i < |es| ==> Answered(gen, AiEmailToPrompt(es[i]), sys.nextSteps)) ==> r.Ok?
  {
    calls := [];
    var actionable: seq<ActionableEmail> := [];
    var j := 0;
    while j < |es|
      invariant 0 <= j <= |es|
      invariant |actionable| == j
      invariant forall k :: 0 <= k < j ==> BuildActionableEmail(gen, sys, es[k]) == Ok(actionable[k])
      invariant calls == Asked(es[..j], sys.nextSteps)
      invariant AllAnswered(gen, calls)
    {
      calls := calls + [Invocation(AiEmailToPrompt(es[j]), sys.nextSteps)];
      var a := BuildActionableEmail(gen, sys, es[j]);
      if a.Err? {
        assert calls == Asked(es[..j + 1], sys.nextSteps) by {
          assert es[..j + 1] == es[..j] + [es[j]];
        }
        assert Asked(es[..j + 1], sys.nextSteps) == Asked(es, sys.nextSteps)[..j + 1];
        assert calls[..|calls| - 1] == Asked(es[..j], sys.nextSteps);
        return Err(a.error), calls;
      }
      actionable := actionable + [a.value];
      j := j + 1;
    }
    assert es[..j] == es;
    return Ok(actionable), calls;
  }

  /** How a compilation that ran out of answers ended: the calls followed
      the summaries and then the next steps in order, and stopped at the
      first call with no answer text, raising what that call raised. */
  predicate CompileStopped(gen: Generator, sys: SystemPrompts, emails: seq<Email>, highPriority: seq<Email>,
                           calls: seq<Invocation>, error: PyError)
  {
    StoppedAt(gen, calls, Asked(emails, sys.summary) + Asked(highPriority, sys.nextSteps))
    && error == CallError(gen, calls[|calls| - 1], if |calls| <= |emails| then "body" else "next_steps")
  }

  lemma SummariesStopped(gen: Generator, sys: SystemPrompts, emails: seq<Email>, highPriority: seq<Email>,
                         asked: seq<Invocation>, error: PyError)
    requires StoppedAt(gen, asked, Asked(emails, sys.summary))
    requires error == CallError(gen, asked[|asked| - 1], "body")
    ensures CompileStopped(gen, sys, emails, highPriority, asked, error)
  {
    StoppedWithin(gen, asked, Asked(emails, sys.summary), Asked(highPriority, sys.nextSteps));
  }

  lemma NextStepsStopped(gen: Generator, sys: SystemPrompts, emails: seq<Email>, highPriority: seq<Email>,
                         asked: seq<Invocation>, nextAsked: seq<Invocation>, error: PyError)
    requires asked == Asked(emails, sys.summary) && AllAnswered(gen, asked)
    requires StoppedAt(gen, nextAsked, Asked(highPriority, sys.nextSteps))
    requires error == CallError(gen, nextAsked[|nextAsked| - 1], "next_steps")
    ensures CompileStopped(gen, sys, emails, highPriority, asked + nextAsked, error)
  {
    StoppedAfter(gen, asked, nextAsked, Asked(highPriority, sys.nextSteps));
    var calls := asked + nextAsked;
    assert calls[|calls| - 1] == nextAsked[|nextAsked| - 1];
  }

  /** `compile_email_report(...)`. The Haiku client is built first, from the
      environment; then every regular email is summarised and every
      high-priority email turned into next steps, each with one model call,
      in list order. `calls` records the calls made. */
  method CompileEmailReport(account: EmailAccount, emails: seq<Email>, grouped: seq<GroupedEmails>,
                            highPriority: seq<Email>, env: Env, gen: Generator, sys: SystemPrompts,
                            timestamp: string)
    returns (r: Result<EmailReport, PyError>, calls: seq<Invocation>)
    ensures Anthropic.NewClient(None, None, Some(Anthropic.Haiku), None, env).Err? ==>
      r == Err(Anthropic.NewClient(None, None, Some(Anthropic.Haiku), None, env).error) && calls == []
    ensures r.Ok? ==> r.value.emailAccount == account && r.value.timestamp == timestamp
    ensures r.Ok? ==> r.value.groupedEmails == grouped
    ensures r.Ok? ==> |r.value.summaries| == |emails|
    ensures r.Ok? ==> forall i :: 0 <= i < |emails| ==> BuildSummary(gen, sys, emails[i]) == Ok(r.value.summaries[i])
    ensures r.Ok? ==> |r.value.actionableEmails| == |highPriority|
    ensures r.Ok? ==> forall i :: 0 <= i < |highPriority| ==>
      BuildActionableEmail(gen, sys, highPriority[i]) == Ok(r.value.actionableEmails[i])
    ensures r.Ok? ==> calls == Asked(emails, sys.summary) + Asked(highPriority, sys.nextSteps)
    ensures r.Ok? ==> |calls| == |emails| + |highPriority|
    ensures Anthropic.NewClient(None, None, Some(Anthropic.Haiku), None, env).Ok? && r.Err? ==>
      CompileStopped(gen, sys, emails, highPriority, calls, r.error)
    ensures r.Ok? ==> (r.value.IsEmpty() <==> emails == [] && grouped == [] && highPriority == [])
    ensures Anthropic.NewClient(None, None, Some(Anthropic.Haiku), None, env).Ok?
      && (forall i :: 0 <= i < |emails| ==> Answered(gen, AiEmailToPrompt(emails[i]), sys.summary))
      && (forall i :: 0 <= i < |highPriority| ==> Answered(gen, AiEmailToPrompt(highPriority[i]), sys.nextSteps))
      ==> r.Ok?
  {
    var client := Anthropic.NewClient(None, None, Some(Anthropic.Haiku), None, env);
    if client.Err? {
      return Err(client.error), [];
    }
    var summaries, asked := SummarizeAll(emails, gen, sys);
    if summaries.Err? {
      SummariesStopped(gen, sys, emails, highPriority, asked, summaries.error);
      return Err(summaries.error), asked;
    }
    var actionable, nextAsked := ActOnAll(highPriority, gen, sys);
    calls := asked + nextAsked;
    if actionable.Err? {
      NextStepsStopped(gen, sys, emails, highPriority, asked, nextAsked, actionable.error);
      return Err(actionable.error), calls;
    }
    var report := EmailReport(account, summaries.value, timestamp, grouped, actionable.value);
    return Ok(report), calls;
  }
}

=== FILE: anthropic.dfy ===
/** `BedrockReasoningClient` of src/email_summarizer/services/anthropic_client.py:
    model-id resolution, the shape of a `converse` request, and the reading of
    its answer into a `ModelResponse`. The Bedrock call itself is a parameter. */
module Anthropic {
  import opened Wrappers
  import opened Json
  import opened Converse
  import opened Settings
  import ModelInfo

  datatype AnthropicModel = Sonnet | Haiku

  /** The environment variable naming each model's Bedrock id. */
  function IdVariable(m: AnthropicModel): string {
    match m
    case Sonnet => "SONNET_MODEL_ID"
    case Haiku => "HAIKU_MODEL_ID"
  }

  /** `AnthropicModels.get_model_id`: no model, no id; otherwise the id from
      the environment, which raises `KeyError` when unset. */
  function GetModelId(name: Option<AnthropicModel>, env: Env): (r: Result<Option<string>, PyError>)
    ensures name.None? ==> r == Ok(None)
    ensures name.Some? ==> (r.Ok? <==> IdVariable(name.value) in env)
    ensures name.Some? && r.Ok? ==> r.value == Some(env[IdVariable(name.value)])
    ensures r.Err? ==> r.error == KeyError(IdVariable(name.value))
  {
    match name
    case None => Ok(None)
    case Some(m) =>
      if IdVariable(m) in env then Ok(Some(env[IdVariable(m)])) else Err(KeyError(IdVariable(m)))
  }

  /** A constructed client's settings. */
  datatype Client = Client(regionName: string, profileName: string, defaultModel: Option<AnthropicModel>, defaultModelId: string)

  const MissingModelMessage := "Either model name or model ID must be provided"

  /** The constructor (the boto3 session aside): the region is the argument
      or `AWS_REGION`; the id is the explicit one, else the model's id from
      the environment, else "" — and an empty id is refused. */
  function NewClient(region: Option<string>, profile: Option<string>, modelName: Option<AnthropicModel>,
                     modelId: Option<string>, env: Env): (r: Result<Client, PyError>)
    ensures r.Ok? ==> r.value.defaultModelId != ""
    ensures r.Ok? ==> Given(region) || "AWS_REGION" in env
    ensures r.Ok? ==> r.value.regionName == if Given(region) then region.value else env["AWS_REGION"]
    ensures r.Ok? ==> r.value.profileName == if Given(profile) then profile.value else "data_reply"
    ensures r.Ok? && Given(modelId) ==> r.value.defaultModelId == modelId.value
    ensures r.Ok? && !Given(modelId) ==>
      modelName.Some? && IdVariable(modelName.value) in env && r.value.defaultModelId == env[IdVariable(modelName.value)]
    ensures !Given(region) && "AWS_REGION" !in env ==> r == Err(KeyError("AWS_REGION"))
    ensures (Given(region) || "AWS_REGION" in env) && !Given(modelId) && modelName.None? ==>
      r == Err(ValueError(MissingModelMessage))
    ensures (Given(region) || "AWS_REGION" in env) && Given(modelId) ==> r.Ok?
    ensures (Given(region) || "AWS_REGION" in env) && !Given(modelId) && modelName.Some? ==>
      IdVariable(modelName.value) !in env ==> r == Err(KeyError(IdVariable(modelName.value)))
    ensures (Given(region) || "AWS_REGION" in env) && !Given(modelId) && modelName.Some? ==>
      IdVariable(modelName.value) in env ==>
        (r.Ok? <==> env[IdVariable(modelName.value)] != "")
        && (r.Err? ==> r.error == ValueError(MissingModelMessage))
  {
    var regionName :-
      if Given(region) then Ok(region.value)
      else if "AWS_REGION" in env then Ok(env["AWS_REGION"])
      else Err(KeyError("AWS_REGION"));
    var profileName := if Given(profile) then profile.value else "data_reply";
    var id :-
      if Given(modelId) then Ok(modelId.value)
      else
        var looked :- GetModelId(modelName, env);
        Ok(if Given(looked) then looked.value else "");
    if id == "" then Err(ValueError(MissingModelMessage))
    else Ok(Client(regionName, profileName, modelName, id))
  }

  /** The client the report compiler builds, `BedrockReasoningClient(model_name=HAIKU)`,
      exists exactly when the region and a non-empty Haiku id are set. */
  lemma HaikuClient(env: Env)
    ensures NewClient(None, None, Some(Haiku), None, env).Ok? <==>
      "AWS_REGION" in env && "HAIKU_MODEL_ID" in env && env["HAIKU_MODEL_ID"] != ""
    ensures NewClient(None, None, Some(Haiku), None, env).Ok? ==>
      NewClient(None, None, Some(Haiku), None, env).value
        == Client(env["AWS_REGION"], "data_reply", Some(Haiku), env["HAIKU_MODEL_ID"])
  {
  }

  /** `system_parameter`: `[{"text": system_prompt}]` for a non-empty system
      prompt, `None` otherwise. */
  function SystemParameter(systemPrompt: Option<string>): (v: Value)
    ensures v != Null <==> Given(systemPrompt)
    ensures v != Null ==> v.Arr? && |v.items| == 1
    ensures v != Null ==> At(v, [Index(0), Key("text")]) == Some(Str(systemPrompt.value))
  {
    if Given(systemPrompt) then
      var block := Obj(map["text" := Str(systemPrompt.value)]);
      assert At(Arr([block]), [Index(0), Key("text")]) == At(block, [Key("text")]);
      Arr([block])
    else Null
  }

  /** The keyword arguments of `client.converse(...)`. */
  datatype Request = Request(modelId: string, messages: Value, inferenceConfig: Value, system: Value, additionalFields: Value)

  /** The request `invoke_model` sends. */
  function BuildRequest(c: Client, prompt: string, modelId: Option<string>, temperature: real,
                        systemPrompt: Option<string>, additional: Value): (q: Request)
    ensures q.modelId == if Given(modelId) then modelId.value else c.defaultModelId
    ensures c.defaultModelId != "" ==> q.modelId != ""
    ensures q.messages == Conversation(prompt)
    ensures At(q.messages, [Index(0), Key("content"), Index(0), Key("text")]) == Some(Str(prompt))
    ensures At(q.inferenceConfig, [Key("temperature")]) == Some(Float(temperature))
    ensures q.system == SystemParameter(systemPrompt) && q.additionalFields == additional
  {
    var config := Obj(map["temperature" := Float(temperature)]);
    assert At(config, [Key("temperature")]) == Some(Float(temperature));
    Request(if Given(modelId) then modelId.value else c.defaultModelId, Conversation(prompt), config,
            SystemParameter(systemPrompt), additional)
  }

  /** `ModelResponse(reasoning=…, response=…)`. */
  datatype ModelResponse = ModelResponse(reasoning: Option<string>, response: Option<string>)

  /** Validation of an `Optional[str]` field: `None` or a string. */
  function OptionalString(v: Option<Value>, field: string): (r: Result<Option<string>, PyError>)
    ensures r.Ok? <==> v.None? || v.value.Null? || v.value.Str?
    ensures r.Ok? && v.Some? && v.value.Str? ==> r.value == Some(v.value.s)
    ensures r.Ok? && (v.None? || v.value.Null?) ==> r.value.None?
    ensures r.Err? ==> r.error == ValidationError(field)
  {
    match v
    case None => Ok(None)
    case Some(Null) => Ok(None)
    case Some(Str(s)) => Ok(Some(s))
    case Some(_) => Err(ValidationError(field))
  }

  /** `invoke_model`. The Bedrock call is `converse`. The answer's text is
      that of the last block carrying text and its reasoning that of the last
      block carrying reasoning content, each `None` when no block does. */
  method InvokeModel(c: Client, prompt: string, modelId: Option<string>, temperature: real,
                     systemPrompt: Option<string>, additional: Value, converse: Request -> Value)
    returns (request: Request, r: Result<ModelResponse, PyError>)
    ensures request == BuildRequest(c, prompt, modelId, temperature, systemPrompt, additional)
    ensures ContentBlocks(converse(request)).Err? ==> r == Err(ContentBlocks(converse(request)).error)
    ensures r.Ok? ==> ContentBlocks(converse(request)).Ok?
    ensures r.Ok? ==>
      OptionalString(LastText(ContentBlocks(converse(request)).value), "response") == Ok(r.value.response)
    ensures r.Ok? ==>
      OptionalString(LastReasoning(ContentBlocks(converse(request)).value), "reasoning") == Ok(r.value.reasoning)
    ensures ContentBlocks(converse(request)).Ok?
      && (forall i :: 0 <= i < |ContentBlocks(converse(request)).value| ==> Readable(ContentBlocks(converse(request)).value[i]))
      && OptionalString(LastText(ContentBlocks(converse(request)).value), "response").Ok?
      && OptionalString(LastReasoning(ContentBlocks(converse(request)).value), "reasoning").Ok?
      ==> r.Ok?
  {
    request := BuildRequest(c, prompt, modelId, temperature, systemPrompt, additional);
    var blocks := ContentBlocks(converse(request));
    if blocks.Err? {
      return request, Err(blocks.error);
    }
    var scanned := ScanContentBlocks(blocks.value);
    if scanned.Err? {
      return request, Err(scanned.error);
    }
    var reasoning := OptionalString(scanned.value.reasoning, "reasoning");
    var response := OptionalString(scanned.value.response, "response");
    if reasoning.Err? {
      return request, Err(reasoning.error);
    }
    if response.Err? {
      return request, Err(response.error);
    }
    return request, Ok(ModelResponse(reasoning.value, response.value));
  }

  /** `invoke_reasoning`: `invoke_model` with no system prompt, the default
      temperature 1 and the reasoning configuration as additional fields. */
  method InvokeReasoning(c: Client, prompt: string, budget: int, converse: Request -> Value)
    returns (request: Request, r: Result<ModelResponse, PyError>)
    ensures request.system == Null
    ensures request.modelId == c.defaultModelId
    ensures At(request.additionalFields, [Key("thinking"), Key("budget_tokens")]) == Some(Int(budget))
    ensures r.Ok? ==> ContentBlocks(converse(request)).Ok?
    ensures r.Ok? ==>
      OptionalString(LastText(ContentBlocks(converse(request)).value), "response") == Ok(r.value.response)
  {
    request, r := InvokeModel(c, prompt, None, 1.0, None, ReasoningConfig(budget), converse);
  }

  /** `get_model_info(target_model_id)`: the default id is always a string,
      so this never fails. */
  function GetModelInfo(c: Client, target: Option<string>): (r: ModelInfo.ModelInfo)
    ensures r.modelId == if Given(target) then target.value else c.defaultModelId
    ensures r.region == Some(c.regionName)
    ensures r.provider == ModelInfo.Provider(r.modelId) && r.version == ModelInfo.Version(r.modelId)
  {
    var info := ModelInfo.Describe(target, Some(c.defaultModelId), Some(c.regionName));
    info.value
  }
}

=== FILE: controller.dfy ===
/** `put_email_report` of src/email_summarizer/controllers/alphonse_controller.py:
    the report header, the ordered chat lines a report renders to, and the
    effects of one run — messages sent and the connection closed — for each
    way the run can go. Discord, Gmail and the clock are parameters. */
module Controller {
  import opened Wrappers
  import opened Text
  import opened Json
  import opened Settings
  import opened Models
  import opened Grouping
  import opened Prompts
  import opened Ai
  import Anthropic

  /** `_report_header(email_report)`. */
  function Header(r: EmailReport): string {
    "# " + r.emailAccount.Value() + " Email Report " + r.timestamp
  }

  const NoEmails := "*No emails to report.*"
  const NoHighPriority := "*No high priority emails to report.*"
  const NoRegular := "*No regular emails to report.*"
  const GroupedHeading := "### Grouped Emails"
  const NoGrouped := "*No grouped emails to report.*"
  const GmailUnavailable := "Error: Gmail service not available."

  /** `_any_grouped_emails(email_report)`, on the grouped list. */
  function AnyGroupedEmails(gs: seq<GroupedEmails>): (b: bool)
    ensures b <==> exists i :: 0 <= i < |gs| && gs[i].count > 0
    decreases |gs|
  {
    if gs == [] then false
    else
      var rest := AnyGroupedEmails(gs[1..]);
      assert rest ==> exists i :: 0 <= i < |gs| && gs[i].count > 0 by {
        if rest {
          var i :| 0 <= i < |gs[1..]| && gs[1..][i].count > 0;
          assert gs[i + 1].count > 0;
        }
      }
      gs[0].count > 0 || rest
  }

  /** `f"{n}. ({sender}) {text}"`. */
  function ItemLine(n: int, sender: string, text: string): string {
    IntToString(n) + ". (" + sender + ") " + text
  }

  /** `f"- ({sender}) - message count: {count}"`. */
  function GroupedLine(g: GroupedEmails): string {
    "- (" + g.sender + ") - message count: " + IntToString(g.count)
  }

  function HighPriorityLines(items: seq<ActionableEmail>): seq<string> {
    seq(|items|, i requires 0 <= i < |items| => ItemLine(i + 1, items[i].email.sender, items[i].nextSteps))
  }

  function RegularLines(items: seq<Summary>): seq<string> {
    seq(|items|, i requires 0 <= i < |items| => ItemLine(i + 1, items[i].email.sender, items[i].body))
  }

  function GroupedLines(gs: seq<GroupedEmails>): seq<string> {
    seq(|gs|, i requires 0 <= i < |gs| => GroupedLine(gs[i]))
  }

  function GroupedSection(gs: seq<GroupedEmails>): seq<string> {
    if AnyGroupedEmails(gs) then [GroupedHeading] + GroupedLines(gs) else [NoGrouped]
  }

  /** The messages a report is sent as, in order, reading the high-priority
      items from `actionable_emails`. Each `for … else` has no `break`, so its
      placeholder line follows the items every time. */
  function Render(r: EmailReport): seq<string> {
    if r.IsEmpty() then [Header(r), NoEmails]
    else
      [Header(r)] + HighPriorityLines(r.actionableEmails) + [NoHighPriority]
        + RegularLines(r.summaries) + [NoRegular]
        + GroupedSection(r.groupedEmails)
  }

  /** Every rendering opens with the header, and an empty report is exactly
      the header and the no-emails line (and only an empty one is). */
  lemma RenderEmptyReport(r: EmailReport)
    ensures |Render(r)| >= 2 && Render(r)[0] == Header(r)
    ensures r.IsEmpty() <==> Render(r) == [Header(r), NoEmails]
  {
    if !r.IsEmpty() {
      assert |Render(r)| >= 4;
    }
  }

  /** Where each line of a non-empty report sits: the header; the
      high-priority items numbered from 1; their placeholder; the regular
      items numbered from 1; their placeholder; then the grouped heading and
      one line per grouped entry (zero counts included) when some count is
      positive, else the no-grouped line. Positions depend only on the list
      lengths. */
  lemma RenderLayout(r: EmailReport)
    requires !r.IsEmpty()
    ensures var a := |r.actionableEmails|;
      var s := |r.summaries|;
      var out := Render(r);
      |out| == 4 + a + s + (if AnyGroupedEmails(r.groupedEmails) then |r.groupedEmails| else 0)
      && out[0] == Header(r)
      && (forall i :: 0 <= i < a ==>
            out[1 + i] == ItemLine(i + 1, r.actionableEmails[i].email.sender, r.actionableEmails[i].nextSteps))
      && out[1 + a] == NoHighPriority
      && (forall j :: 0 <= j < s ==>
            out[2 + a + j] == ItemLine(j + 1, r.summaries[j].email.sender, r.summaries[j].body))
      && out[2 + a + s] == NoRegular
      && out[3 + a + s] == (if AnyGroupedEmails(r.groupedEmails) then GroupedHeading else NoGrouped)
      && (AnyGroupedEmails(r.groupedEmails) ==>
            forall k :: 0 <= k < |r.groupedEmails| ==> out[4 + a + s + k] == GroupedLine(r.groupedEmails[k]))
  {
    RenderHighPriority(r);
    RenderRegular(r);
    RenderGrouped(r);
  }

  lemma RenderHighPriority(r: EmailReport)
    requires !r.IsEmpty()
    ensures |Render(r)| >= 2 + |r.actionableEmails|
    ensures forall i :: 0 <= i < |r.actionableEmails| ==>
      Render(r)[1 + i] == ItemLine(i + 1, r.actionableEmails[i].email.sender, r.actionableEmails[i].nextSteps)
    ensures Render(r)[1 + |r.actionableEmails|] == NoHighPriority
  {
    var lines := HighPriorityLines(r.actionableEmails);
    var rest := [NoHighPriority] + RegularLines(r.summaries) + [NoRegular] + GroupedSection(r.groupedEmails);
    assert Render(r) == [Header(r)] + lines + rest;
    Middle([Header(r)], lines, rest);
  }

  lemma RenderRegular(r: EmailReport)
    requires !r.IsEmpty()
    ensures var a := |r.actionableEmails|;
      |Render(r)| >= 3 + a + |r.summaries|
      && (forall j :: 0 <= j < |r.summaries| ==>
            Render(r)[2 + a + j] == ItemLine(j + 1, r.summaries[j].email.sender, r.summaries[j].body))
      && Render(r)[2 + a + |r.summaries|] == NoRegular
  {
    var hp := [Header(r)] + HighPriorityLines(r.actionableEmails) + [NoHighPriority];
    var reg := RegularLines(r.summaries);
    var rest := [NoRegular] + GroupedSection(r.groupedEmails);
    assert Render(r) == hp + reg + rest;
    assert |hp| == 2 + |r.actionableEmails|;
    Middle(hp, reg, rest);
  }

  /** Positions inside a three-part concatenation. */
  lemma Middle<T>(a: seq<T>, b: seq<T>, c: seq<T>)
    ensures forall j :: 0 <= j < |b| ==> (a + b + c)[|a| + j] == b[j]
    ensures forall k :: 0 <= k < |c| ==> (a + b + c)[|a| + |b| + k] == c[k]
  {
  }

  lemma RenderGrouped(r: EmailReport)
    requires !r.IsEmpty()
    ensures var n := 3 + |r.actionableEmails| + |r.summaries|;
      |Render(r)| == n + 1 + (if AnyGroupedEmails(r.groupedEmails) then |r.groupedEmails| else 0)
      && Render(r)[n] == (if AnyGroupedEmails(r.groupedEmails) then GroupedHeading else NoGrouped)
      && (AnyGroupedEmails(r.groupedEmails) ==>
            forall k :: 0 <= k < |r.groupedEmails| ==> Render(r)[n + 1 + k] == GroupedLine(r.groupedEmails[k]))
  {
    var front := [Header(r)] + HighPriorityLines(r.actionableEmails) + [NoHighPriority]
      + RegularLines(r.summaries) + [NoRegular];
    var gs := GroupedSection(r.groupedEmails);
    assert Render(r) == front + gs;
    assert |front| == 3 + |r.actionableEmails| + |r.summaries|;
    Middle(front, gs, []);
    assert front + gs + [] == front + gs;
  }

  /** The number in front of an item line: the text before its first ".",
      read as an integer. */
  function ItemNumber(line: string): Option<int> {
    var head := Split(line, '.')[0];
    if IsIntLiteral(head) then Some(ParseInt(head)) else None
  }

  lemma IntLiteralHasNo(s: string, c: char)
    requires IsIntLiteral(s) && c != '-' && !IsDigit(c)
    ensures c !in s
  {
    forall i | 0 <= i < |s|
      ensures s[i] != c
    {
      if s[0] == '-' && i > 0 {
        assert s[i] == s[1..][i - 1];
      }
    }
  }

  /** An item line gives back the number it was written with. */
  lemma ItemNumberOf(n: int, sender: string, text: string)
    ensures ItemNumber(ItemLine(n, sender, text)) == Some(n)
  {
    var num := IntToString(n);
    var rest := " (" + sender + ") " + text;
    assert ItemLine(n, sender, text) == num + ['.'] + rest;
    IntLiteralHasNo(num, '.');
    SplitAtFirstSep(num, rest, '.');
    IntRoundTrip(n);
  }

  /** The count written at the end of a grouped line: the text after its
      last space, read as an integer. */
  function GroupedLineCount(line: string): Option<int> {
    var tail := LastSegment(line, ' ');
    if IsIntLiteral(tail) then Some(ParseInt(tail)) else None
  }

  /** A grouped line gives back the count it was written with, whatever the
      sender. */
  lemma GroupedLineCountOf(g: GroupedEmails)
    ensures GroupedLineCount(GroupedLine(g)) == Some(g.count)
  {
    var num := IntToString(g.count);
    var front := "- (" + g.sender + ") - message count:";
    assert GroupedLine(g) == front + [' '] + num;
    IntLiteralHasNo(num, ' ');
    LastSegmentOf(front, num, ' ');
    IntRoundTrip(g.count);
  }

  /** Item numbers run 1, 2, … in list order and start again at 1 in the
      regular section. */
  lemma RenderNumbering(r: EmailReport)
    requires !r.IsEmpty()
    ensures Render(r)[1..1 + |r.actionableEmails|] == HighPriorityLines(r.actionableEmails)
    ensures Render(r)[2 + |r.actionableEmails|..2 + |r.actionableEmails| + |r.summaries|] == RegularLines(r.summaries)
    ensures forall i :: 0 <= i < |r.actionableEmails| ==>
      ItemNumber(HighPriorityLines(r.actionableEmails)[i]) == Some(i + 1)
    ensures forall j :: 0 <= j < |r.summaries| ==> ItemNumber(RegularLines(r.summaries)[j]) == Some(j + 1)
  {
    var hp := HighPriorityLines(r.actionableEmails);
    var reg := RegularLines(r.summaries);
    var front := [Header(r)] + hp + [NoHighPriority];
    var back := [NoRegular] + GroupedSection(r.groupedEmails);
    assert Render(r) == [Header(r)] + hp + ([NoHighPriority] + reg + back);
    SliceOf([Header(r)], hp, [NoHighPriority] + reg + back);
    assert Render(r) == front + reg + back;
    SliceOf(front, reg, back);
    HighPriorityNumbering(r.actionableEmails);
    RegularNumbering(r.summaries);
  }

  /** The middle part of a three-part concatenation is the slice at its place. */
  lemma SliceOf<T>(a: seq<T>, b: seq<T>, c: seq<T>)
    ensures (a + b + c)[|a|..|a| + |b|] == b
  {
  }

  lemma HighPriorityNumbering(xs: seq<ActionableEmail>)
    ensures forall i :: 0 <= i < |xs| ==> ItemNumber(HighPriorityLines(xs)[i]) == Some(i + 1)
  {
    forall i | 0 <= i < |xs|
      ensures ItemNumber(HighPriorityLines(xs)[i]) == Some(i + 1)
    {
      ItemNumberOf(i + 1, xs[i].email.sender, xs[i].nextSteps);
    }
  }

  lemma RegularNumbering(xs: seq<Summary>)
    ensures forall j :: 0 <= j < |xs| ==> ItemNumber(RegularLines(xs)[j]) == Some(j + 1)
  {
    forall j | 0 <= j < |xs|
      ensures ItemNumber(RegularLines(xs)[j]) == Some(j + 1)
    {
      ItemNumberOf(j + 1, xs[j].email.sender, xs[j].body);
    }
  }

  /** The messages as the source sends them: line 60 reads
      `high_priority_summaries`, which `EmailReport` does not have, so a
      non-empty report raises `AttributeError` right after its header. */
  function RenderAsWritten(r: EmailReport): Delivery {
    if r.IsEmpty() then Delivery([Header(r), NoEmails], None)
    else Delivery([Header(r)], Some(AttributeError("high_priority_summaries")))
  }

  /** The messages sent before the rendering stopped, and what it raised. */
  datatype Delivery = Delivery(sent: seq<string>, raised: Option<PyError>)

  /** As written, every non-empty report is cut down to its header, while
      the intended rendering has at least four lines; for an empty report
      the two agree. */
  lemma AsWrittenLosesNonEmptyReports(r: EmailReport)
    ensures r.IsEmpty() ==> RenderAsWritten(r).sent == Render(r) && RenderAsWritten(r).raised.None?
    ensures !r.IsEmpty() ==>
      RenderAsWritten(r).sent == [Header(r)] && RenderAsWritten(r).raised == Some(AttributeError("high_priority_summaries"))
      && |Render(r)| >= 4 && Render(r)[..1] == RenderAsWritten(r).sent
  {
    RenderEmptyReport(r);
  }

  /** What the bot does: send a message, or close its connection. */
  datatype Effect = Send(text: string) | Close

  /** `get_emails(email_account, max_results)`: the emails, the
      unavailable-service error, or any other failure. */
  datatype FetchOutcome = Fetched(emails: seq<Email>) | Unavailable | FetchFailed

  function Sends(lines: seq<string>): (effects: seq<Effect>)
    ensures |effects| == |lines|
    ensures forall i :: 0 <= i < |lines| ==> effects[i] == Send(lines[i])
  {
    seq(|lines|, i requires 0 <= i < |lines| => Send(lines[i]))
  }

  /** The two grouping patterns the environment supplies. */
  function GroupingEnvOf(env: Env): GroupingEnv {
    GroupingEnv(GetEnv(env, "SPOUSE_REGEX"), GetEnv(env, "DAYCARE_REGEX"))
  }

  /** Exactly one close, and it comes last. */
  predicate ClosesOnceAtEnd(effects: seq<Effect>) {
    |effects| >= 1 && effects[|effects| - 1] == Close
      && forall i :: 0 <= i < |effects| - 1 ==> effects[i].Send?
  }

  /** The inner `try` of `put_email_report` once emails have been fetched:
      group them, compile the report and send its lines, then close. Any
      failure on the way is caught, so only the close happens. */
  method ReportFetched(account: EmailAccount, emails: seq<Email>, env: Env, matches: Matcher,
                       gen: Generator, sys: SystemPrompts, timestamp: string)
    returns (effects: seq<Effect>, report: Option<EmailReport>)
    ensures ClosesOnceAtEnd(effects)
    ensures BuildGroupingCategories(GroupingEnvOf(env)).Err? ==> effects == [Close] && report.None?
    ensures report.None? ==> effects == [Close]
    ensures BuildGroupingCategories(GroupingEnvOf(env)).Ok?
      && Anthropic.NewClient(None, None, Some(Anthropic.Haiku), None, env).Ok?
      && (forall e :: e in emails ==> Answered(gen, AiEmailToPrompt(e), sys.summary))
      && (forall e :: e in emails ==> Answered(gen, AiEmailToPrompt(e), sys.nextSteps))
      ==> report.Some?
    ensures report.Some? ==> effects == Sends(Render(report.value)) + [Close]
    ensures report.Some? ==> report.value.emailAccount == account && report.value.timestamp == timestamp
    ensures report.Some? ==> BuildGroupingCategories(GroupingEnvOf(env)).Ok?
    ensures report.Some? ==>
      var cats := BuildGroupingCategories(GroupingEnvOf(env)).value;
      report.value.groupedEmails == GroupedUpTo(cats, matches, emails, |cats|)
    ensures report.Some? ==>
      var cats := BuildGroupingCategories(GroupingEnvOf(env)).value;
      |report.value.summaries| == |Unmatched(cats, matches, emails)|
      && forall i :: 0 <= i < |report.value.summaries| ==>
        report.value.summaries[i].email == Unmatched(cats, matches, emails)[i]
    ensures report.Some? ==>
      var cats := BuildGroupingCategories(GroupingEnvOf(env)).value;
      |report.value.actionableEmails| == |Urgent(cats, matches, emails)|
      && forall i :: 0 <= i < |report.value.actionableEmails| ==>
        report.value.actionableEmails[i].email == Urgent(cats, matches, emails)[i]
  {
    var payload, cats := GroupEmails(emails, GroupingEnvOf(env), matches);
    if payload.Err? {
      return [Close], None;
    }
    forall e | e in payload.value.ungroupedEmails
      ensures e in emails
    {
      UnmatchedIff(cats, matches, emails, e);
    }
    forall e | e in payload.value.highPriorityEmails
      ensures e in emails
    {
      UrgentIff(cats, matches, emails, e);
    }
    var regular := payload.value.ungroupedEmails;
    var urgent := payload.value.highPriorityEmails;
    AnswersCarryOver(emails, regular, gen, sys.summary);
    AnswersCarryOver(emails, urgent, gen, sys.nextSteps);
    var compiled, calls := CompileEmailReport(account, regular,
      payload.value.listOfGroupedEmails, urgent, env, gen, sys, timestamp);
    if compiled.Err? {
      return [Close], None;
    }
    var r := compiled.value;
    forall i | 0 <= i < |r.summaries|
      ensures r.summaries[i].email == regular[i]
    {
      assert BuildSummary(gen, sys, regular[i]) == Ok(r.summaries[i]);
    }
    forall i | 0 <= i < |r.actionableEmails|
      ensures r.actionableEmails[i].email == urgent[i]
    {
      assert BuildActionableEmail(gen, sys, urgent[i]) == Ok(r.actionableEmails[i]);
    }
    SendsThenClose(Render(compiled.value));
    effects := Sends(Render(compiled.value)) + [Close];
    report := Some(compiled.value);
  }

  /** Answers the model has for every email it also has for every email
      of a sub-list. */
  lemma AnswersCarryOver(emails: seq<Email>, sub: seq<Email>, gen: Generator, system: string)
    requires forall e :: e in sub ==> e in emails
    ensures (forall e :: e in emails ==> Answered(gen, AiEmailToPrompt(e), system)) ==>
      forall i :: 0 <= i < |sub| ==> Answered(gen, AiEmailToPrompt(sub[i]), system)
  {
    if forall e :: e in emails ==> Answered(gen, AiEmailToPrompt(e), system) {
      forall i | 0 <= i < |sub|
        ensures Answered(gen, AiEmailToPrompt(sub[i]), system)
      {
        assert sub[i] in sub;
      }
    }
  }

  lemma SendsThenClose(lines: seq<string>)
    ensures ClosesOnceAtEnd(Sends(lines) + [Close])
  {
    var es := Sends(lines) + [Close];
    assert forall i :: 0 <= i < |es| - 1 ==> es[i] == Send(lines[i]);
  }

  /** `put_email_report(client, email_account, channel_str, max_emails)`,
      with the report built from the high-priority list as intended.
      `channels` says whether `client.get_channel(id)` finds a channel. A
      channel id that is not an integer raises before the `try`, so nothing
      is sent and nothing closed; on every other path the connection is
      closed exactly once, last. */
  method PutEmailReport(account: EmailAccount, channelStr: string, channels: int -> bool, fetch: FetchOutcome,
                        env: Env, matches: Matcher, gen: Generator, sys: SystemPrompts, timestamp: string)
    returns (effects: seq<Effect>, report: Option<EmailReport>)
    ensures !IsIntLiteral(channelStr) ==> effects == [] && report.None?
    ensures IsIntLiteral(channelStr) ==> ClosesOnceAtEnd(effects)
    ensures IsIntLiteral(channelStr) && !channels(ParseInt(channelStr)) ==> effects == [Close]
    ensures IsIntLiteral(channelStr) && channels(ParseInt(channelStr)) && fetch.Unavailable? ==>
      effects == [Send(GmailUnavailable), Close]
    ensures IsIntLiteral(channelStr) && fetch.FetchFailed? ==> effects == [Close]
    ensures IsIntLiteral(channelStr) && fetch.Fetched? && report.None? ==> effects == [Close]
    ensures IsIntLiteral(channelStr) && fetch.Fetched? && BuildGroupingCategories(GroupingEnvOf(env)).Err? ==>
      effects == [Close]
    ensures IsIntLiteral(channelStr) && channels(ParseInt(channelStr)) && fetch.Fetched?
      && BuildGroupingCategories(GroupingEnvOf(env)).Ok?
      && Anthropic.NewClient(None, None, Some(Anthropic.Haiku), None, env).Ok?
      && (forall e :: e in fetch.emails ==> Answered(gen, AiEmailToPrompt(e), sys.summary))
      && (forall e :: e in fetch.emails ==> Answered(gen, AiEmailToPrompt(e), sys.nextSteps))
      ==> report.Some?
    ensures report.Some? ==> fetch.Fetched? && effects == Sends(Render(report.value)) + [Close]
    ensures report.Some? ==> report.value.emailAccount == account && report.value.timestamp == timestamp
    ensures report.Some? ==> BuildGroupingCategories(GroupingEnvOf(env)).Ok?
    ensures report.Some? ==>
      var cats := BuildGroupingCategories(GroupingEnvOf(env)).value;
      report.value.groupedEmails == GroupedUpTo(cats, matches, fetch.emails, |cats|)
    ensures report.Some? ==>
      var cats := BuildGroupingCategories(GroupingEnvOf(env)).value;
      |report.value.summaries| == |Unmatched(cats, matches, fetch.emails)|
      && forall i :: 0 <= i < |report.value.summaries| ==>
        report.value.summaries[i].email == Unmatched(cats, matches, fetch.emails)[i]
    ensures report.Some? ==>
      var cats := BuildGroupingCategories(GroupingEnvOf(env)).value;
      |report.value.actionableEmails| == |Urgent(cats, matches, fetch.emails)|
      && forall i :: 0 <= i < |report.value.actionableEmails| ==>
        report.value.actionableEmails[i].email == Urgent(cats, matches, fetch.emails)[i]
  {
    if !IsIntLiteral(channelStr) {
      return [], None;
    }
    var channelId := ParseInt(channelStr);
    if !channels(channelId) {
      return [Close], None;
    }
    match fetch {
      case Unavailable =>
        return [Send(GmailUnavailable), Close], None;
      case FetchFailed =>
        return [Close], None;
      case Fetched(emails) =>
        effects, report := ReportFetched(account, emails, env, matches, gen, sys, timestamp);
    }
  }

  /** The parameters of `compile_email_report` (ai_utils.py), all required. */
  const CompileParameters: set<string> := {"email_account", "emails", "grouped_emails", "high_priority_emails"}

  /** The keywords the controller passes to it. */
  const ControllerKeywords: set<string> := {"email_account", "emails", "grouped_emails", "important_emails"}

  /** Python's binding of keyword arguments to a function whose parameters
      are all required: an unexpected or a missing keyword raises `TypeError`. */
  function BindKeywords(params: set<string>, given: set<string>): (r: Result<(), PyError>)
    ensures r.Ok? <==> given == params
  {
    if given == params then Ok(()) else Err(TypeError)
  }

  /** The run as the source writes it, for a given set of keywords passed
      to `compile_email_report`: the emails are grouped, then the call binds
      its keywords, and a report that compiles is sent as
      `RenderAsWritten` sends it. Any exception is caught and the
      connection closed. */
  method RunWithKeywords(account: EmailAccount, channelStr: string, channels: int -> bool, fetch: FetchOutcome,
                         env: Env, matches: Matcher, gen: Generator, sys: SystemPrompts, timestamp: string,
                         keywords: set<string>)
    returns (effects: seq<Effect>, report: Option<EmailReport>)
    ensures !IsIntLiteral(channelStr) ==> effects == [] && report.None?
    ensures IsIntLiteral(channelStr) ==> ClosesOnceAtEnd(effects)
    ensures IsIntLiteral(channelStr) && !channels(ParseInt(channelStr)) ==> effects == [Close] && report.None?
    ensures IsIntLiteral(channelStr) && channels(ParseInt(channelStr)) && fetch.Unavailable? ==>
      effects == [Send(GmailUnavailable), Close]
    ensures IsIntLiteral(channelStr) && fetch.FetchFailed? ==> effects == [Close] && report.None?
    ensures IsIntLiteral(channelStr) && fetch.Fetched? && report.None? ==> effects == [Close]
    ensures IsIntLiteral(channelStr) && fetch.Fetched? && BindKeywords(CompileParameters, keywords).Err? ==>
      effects == [Close] && report.None?
    ensures IsIntLiteral(channelStr) && channels(ParseInt(channelStr)) && fetch.Fetched?
      && keywords == CompileParameters
      && BuildGroupingCategories(GroupingEnvOf(env)).Ok?
      && Anthropic.NewClient(None, None, Some(Anthropic.Haiku), None, env).Ok?
      && (forall e :: e in fetch.emails ==> Answered(gen, AiEmailToPrompt(e), sys.summary))
      && (forall e :: e in fetch.emails ==> Answered(gen, AiEmailToPrompt(e), sys.nextSteps))
      ==> report.Some?
    ensures report.Some? ==> keywords == CompileParameters && fetch.Fetched?
    ensures report.Some? ==> effects == Sends(RenderAsWritten(report.value).sent) + [Close]
    ensures report.Some? ==> report.value.emailAccount == account && report.value.timestamp == timestamp
  {
    if !IsIntLiteral(channelStr) {
      return [], None;
    }
    if !channels(ParseInt(channelStr)) {
      return [Close], None;
    }
    match fetch {
      case Unavailable =>
        return [Send(GmailUnavailable), Close], None;
      case FetchFailed =>
        return [Close], None;
      case Fetched(emails) =>
        var payload, cats := GroupEmails(emails, GroupingEnvOf(env), matches);
        if payload.Err? {
          return [Close], None;
        }
        var bound := BindKeywords(CompileParameters, keywords);
        if bound.Err? {
          return [Close], None;
        }
        var regular := payload.value.ungroupedEmails;
        var urgent := payload.value.highPriorityEmails;
        forall e | e in regular
          ensures e in emails
        {
          UnmatchedIff(cats, matches, emails, e);
        }
        forall e | e in urgent
          ensures e in emails
        {
          UrgentIff(cats, matches, emails, e);
        }
        AnswersCarryOver(emails, regular, gen, sys.summary);
        AnswersCarryOver(emails, urgent, gen, sys.nextSteps);
        var compiled, calls := CompileEmailReport(account, regular,
          payload.value.listOfGroupedEmails, urgent, env, gen, sys, timestamp);
        if compiled.Err? {
          return [Close], None;
        }
        var sent := RenderAsWritten(compiled.value).sent;
        SendsThenClose(sent);
        return Sends(sent) + [Close], Some(compiled.value);
    }
  }

  /** The keywords the controller passes do not bind: `important_emails` is
      not a parameter and `high_priority_emails` is missing. */
  lemma ControllerKeywordsDoNotBind()
    ensures BindKeywords(CompileParameters, ControllerKeywords) == Err(TypeError)
  {
    assert "important_emails" in ControllerKeywords && "important_emails" !in CompileParameters;
  }

  /** `put_email_report` as written. The call passes `important_emails`,
      so a run that finds its channel and fetches its emails raises
      `TypeError` at the call, sends nothing at all and only closes; the
      other paths are those of the intended run. */
  method PutEmailReportAsWritten(account: EmailAccount, channelStr: string, channels: int -> bool, fetch: FetchOutcome,
                                 env: Env, matches: Matcher, gen: Generator, sys: SystemPrompts, timestamp: string)
    returns (effects: seq<Effect>)
    ensures !IsIntLiteral(channelStr) ==> effects == []
    ensures IsIntLiteral(channelStr) ==> ClosesOnceAtEnd(effects)
    ensures IsIntLiteral(channelStr) && !channels(ParseInt(channelStr)) ==> effects == [Close]
    ensures IsIntLiteral(channelStr) && channels(ParseInt(channelStr)) && fetch.Unavailable? ==>
      effects == [Send(GmailUnavailable), Close]
    ensures IsIntLiteral(channelStr) && !fetch.Unavailable? ==> effects == [Close]
  {
    ControllerKeywordsDoNotBind();
    var report;
    effects, report := RunWithKeywords(account, channelStr, channels, fetch, env, matches, gen, sys, timestamp,
                                       ControllerKeywords);
  }
}

=== FILE: converse.dfy ===
/** The Bedrock `converse` request and response shapes shared by the two
    Anthropic clients (src/email_summarizer/services/anthropic_client.py and
    src/email_summarizer/services/sonnet_client.py): the one-turn
    conversation, the reasoning configuration, and the scan over the content
    blocks of an answer. */
module Converse {
  import opened Wrappers
  import opened Json

  /** `[{"role": "user", "content": [{"text": prompt}]}]`: one user turn
      carrying one text block. */
  function Conversation(prompt: string): (v: Value)
    ensures v.Arr? && |v.items| == 1
    ensures At(v, [Index(0), Key("role")]) == Some(Str("user"))
    ensures At(v, [Index(0), Key("content")]).Some? && At(v, [Index(0), Key("content")]).value.Arr?
    ensures |At(v, [Index(0), Key("content")]).value.items| == 1
    ensures At(v, [Index(0), Key("content"), Index(0), Key("text")]) == Some(Str(prompt))
  {
    var turn := Obj(map["role" := Str("user"), "content" := Arr([Obj(map["text" := Str(prompt)])])]);
    var v := Arr([turn]);
    assert At(v, [Index(0), Key("content"), Index(0), Key("text")])
      == At(turn, [Key("content"), Index(0), Key("text")]);
    v
  }

  /** `{"thinking": {"type": "enabled", "budget_tokens": budget}}`. */
  function ReasoningConfig(budget: int): (v: Value)
    ensures v.Obj? && v.fields.Keys == {"thinking"}
    ensures At(v, [Key("thinking"), Key("type")]) == Some(Str("enabled"))
    ensures At(v, [Key("thinking"), Key("budget_tokens")]) == Some(Int(budget))
  {
    var thinking := Obj(map["type" := Str("enabled"), "budget_tokens" := Int(budget)]);
    var v := Obj(map["thinking" := thinking]);
    assert At(v, [Key("thinking"), Key("type")]) == At(thinking, [Key("type")]);
    assert At(v, [Key("thinking"), Key("budget_tokens")]) == At(thinking, [Key("budget_tokens")]);
    v
  }

  const ContentPath: seq<string> := ["output", "message", "content"]

  /** `for block in response["output"]["message"]["content"]`. */
  function ContentBlocks(response: Value): (r: Result<seq<Value>, PyError>)
    ensures At(response, [Key("output"), Key("message"), Key("content")]).Some?
      && At(response, [Key("output"), Key("message"), Key("content")]).value.Arr?
      ==> r == Ok(At(response, [Key("output"), Key("message"), Key("content")]).value.items)
    ensures response.Obj? && "output" !in response.fields ==> r == Err(KeyError("output"))
  {
    var output :- PyGetItem(response, "output");
    var message :- PyGetItem(output, "message");
    var content :- PyGetItem(message, "content");
    PyIter(content)
  }

  /** `block["reasoningContent"]["reasoningText"]["text"]`. */
  function ReasoningTextOf(block: Value): (r: Result<Value, PyError>)
    ensures r.Ok? <==> At(block, ReasoningPath).Some?
    ensures r.Ok? ==> At(block, ReasoningPath) == Some(r.value)
  {
    var rc :- PyGetItem(block, "reasoningContent");
    var rt :- PyGetItem(rc, "reasoningText");
    PyGetItem(rt, "text")
  }

  const ReasoningPath: seq<PathStep> := [Key("reasoningContent"), Key("reasoningText"), Key("text")]

  /** A dict block with the given key. */
  predicate HasKey(block: Value, key: string) {
    block.Obj? && key in block.fields
  }

  /** A block the scan can read without raising: a dict whose reasoning
      content, if any, has the nested text. */
  predicate Readable(block: Value) {
    block.Obj? && ("reasoningContent" in block.fields ==> At(block, ReasoningPath).Some?)
  }

  /** The position of the last dict block holding `key`. */
  function LastWith(blocks: seq<Value>, key: string): (r: Option<nat>)
    ensures r.Some? ==> r.value < |blocks| && HasKey(blocks[r.value], key)
    ensures r.Some? ==> forall j :: r.value < j < |blocks| ==> !HasKey(blocks[j], key)
    ensures r.None? ==> forall j :: 0 <= j < |blocks| ==> !HasKey(blocks[j], key)
    decreases |blocks|
  {
    if blocks == [] then None
    else if HasKey(blocks[|blocks| - 1], key) then Some(|blocks| - 1)
    else LastWith(blocks[..|blocks| - 1], key)
  }

  /** The answer text: that of the last block holding "text". */
  function LastText(blocks: seq<Value>): Option<Value> {
    match LastWith(blocks, "text")
    case None => None
    case Some(i) => Some(blocks[i].fields["text"])
  }

  /** The reasoning: that of the last block holding "reasoningContent". */
  function LastReasoning(blocks: seq<Value>): Option<Value> {
    match LastWith(blocks, "reasoningContent")
    case None => None
    case Some(i) => At(blocks[i], ReasoningPath)
  }

  /** What the scan leaves in `reasoning_text` and `response_text`; `None`
      when no block set it. */
  datatype Scanned = Scanned(reasoning: Option<Value>, response: Option<Value>)

  /** One iteration of the loop over the content blocks. */
  function ScanStep(acc: Scanned, block: Value): Result<Scanned, PyError> {
    var hasReasoning :- PyContains(block, "reasoningContent");
    var reasoning :- if hasReasoning then (var t :- ReasoningTextOf(block); Ok(Some(t))) else Ok(acc.reasoning);
    var hasText :- PyContains(block, "text");
    var response :- if hasText then (var t :- PyGetItem(block, "text"); Ok(Some(t))) else Ok(acc.response);
    Ok(Scanned(reasoning, response))
  }

  /** The content-block loop: last block wins for both the reasoning and the
      answer text, and each stays `None` when no block carries it. */
  method ScanContentBlocks(blocks: seq<Value>) returns (r: Result<Scanned, PyError>)
    ensures (forall i :: 0 <= i < |blocks| ==> Readable(blocks[i])) ==> r.Ok?
    ensures r.Ok? ==> r.value == Scanned(LastReasoning(blocks), LastText(blocks))
  {
    var acc := Scanned(None, None);
    var i := 0;
    while i < |blocks|
      invariant 0 <= i <= |blocks|
      invariant acc == Scanned(LastReasoning(blocks[..i]), LastText(blocks[..i]))
    {
      var block := blocks[i];
      assert blocks[..i + 1][..i] == blocks[..i];
      assert blocks[..i + 1][i] == block;
      var step := ScanStep(acc, block);
      if step.Err? {
        return Err(step.error);
      }
      acc := step.value;
      i := i + 1;
    }
    assert blocks[..i] == blocks;
    return Ok(acc);
  }
}

=== FILE: general.dfy ===
/** `safe_dig` (src/email_summarizer/utils/general_utils.py): walk a nested
    dict key by key, stopping at the first missing key with either the
    default or an error naming the keys walked so far. */
module General {
  import opened Wrappers
  import opened Text
  import opened Json

  /** The reference walk: follow the keys through nested dicts only. */
  function Reach(data: Value, keys: seq<string>): Option<Value>
    decreases |keys|
  {
    if keys == [] then Some(data)
    else if data.Obj? && keys[0] in data.fields then Reach(data.fields[keys[0]], keys[1..])
    else None
  }

  /** The message of the error raised at a missing key: the keys walked,
      the missing one included, joined by ".". */
  function MissingKeyMessage(traversed: seq<string>): string {
    "Key " + Join(traversed, '.') + " not found in data"
  }

  /** The loop of `safe_dig` once the keys in `traversed` have been walked. */
  function DigFrom(data: Value, keys: seq<string>, default: Value, errorOnMissing: bool, traversed: seq<string>)
    : (r: Result<Value, PyError>)
    ensures keys == [] ==> r == Ok(data)
    decreases |keys|
  {
    if keys == [] then Ok(data)
    else
      var key := keys[0];
      var walked := traversed + [key];
      match PyContains(data, key)
      case Err(e) => Err(e)
      case Ok(true) =>
        (match PyGetItem(data, key)
         case Err(e) => Err(e)
         case Ok(next) => DigFrom(next, keys[1..], default, errorOnMissing, walked))
      case Ok(false) =>
        if errorOnMissing then Err(ValueError(MissingKeyMessage(walked))) else Ok(default)
  }

  /** `safe_dig(data, keys, default, error_on_missing)`. */
  function SafeDig(data: Value, keys: seq<string>, default: Value, errorOnMissing: bool): (r: Result<Value, PyError>)
    ensures keys == [] ==> r == Ok(data)
  {
    DigFrom(data, keys, default, errorOnMissing, [])
  }

  lemma {:induction false} DigFromFound(data: Value, keys: seq<string>, default: Value, errorOnMissing: bool, traversed: seq<string>)
    requires Reach(data, keys).Some?
    ensures DigFrom(data, keys, default, errorOnMissing, traversed) == Ok(Reach(data, keys).value)
    decreases |keys|
  {
    if keys != [] {
      DigFromFound(data.fields[keys[0]], keys[1..], default, errorOnMissing, traversed + [keys[0]]);
    }
  }

  /** When every key is present along the way, the result is the value the
      keys lead to, whatever the default and the error flag. */
  lemma SafeDigFound(data: Value, keys: seq<string>, default: Value, errorOnMissing: bool)
    requires Reach(data, keys).Some?
    ensures SafeDig(data, keys, default, errorOnMissing) == Ok(Reach(data, keys).value)
  {
    DigFromFound(data, keys, default, errorOnMissing, []);
  }

  lemma {:induction false} DigFromMissing(data: Value, keys: seq<string>, default: Value, traversed: seq<string>, k: nat)
    requires k < |keys|
    requires Reach(data, keys[..k]).Some? && Reach(data, keys[..k]).value.Obj?
    requires keys[k] !in Reach(data, keys[..k]).value.fields
    ensures DigFrom(data, keys, default, true, traversed) == Err(ValueError(MissingKeyMessage(traversed + keys[..k + 1])))
    ensures DigFrom(data, keys, default, false, traversed) == Ok(default)
    decreases k
  {
    if k == 0 {
      assert keys[..1] == [keys[0]];
    } else {
      assert keys[..k][0] == keys[0] && keys[..k][1..] == keys[1..][..k - 1];
      assert traversed + keys[..k + 1] == (traversed + [keys[0]]) + keys[1..][..k];
      DigFromMissing(data.fields[keys[0]], keys[1..], default, traversed + [keys[0]], k - 1);
    }
  }

  /** At the first missing key the walk stops: with the error flag set the
      error names the keys walked, the missing one included; without it the
      default comes back. Keys after the missing one play no part. */
  lemma SafeDigMissing(data: Value, keys: seq<string>, default: Value, k: nat)
    requires k < |keys|
    requires Reach(data, keys[..k]).Some? && Reach(data, keys[..k]).value.Obj?
    requires keys[k] !in Reach(data, keys[..k]).value.fields
    ensures SafeDig(data, keys, default, true) == Err(ValueError(MissingKeyMessage(keys[..k + 1])))
    ensures SafeDig(data, keys, default, false) == Ok(default)
  {
    DigFromMissing(data, keys, default, [], k);
    assert [] + keys[..k + 1] == keys[..k + 1];
  }
}

=== FILE: gmail.dfy ===
/** The message-parsing half of src/email_summarizer/services/gmail.py:
    header lookup, body-part selection, body decoding, the 100-character
    preview, and the display text of an email. Base64 and UTF-8 decoding
    are a parameter. */
module Gmail {
  import opened Wrappers
  import opened Text
  import opened Json
  import opened Settings
  import opened Models

  /** `base64.urlsafe_b64decode(s).decode("utf-8")`, `None` where it raises. */
  type Base64Decoder = string -> Option<string>

  /** A header that `h["name"].lower() == name` selects. */
  predicate NamedHeader(h: Value, name: string) {
    h.Obj? && "name" in h.fields && h.fields["name"].Str? && Lower(h.fields["name"].s) == name
  }

  /** A header the lookups can read without raising. */
  predicate ReadableHeader(h: Value) {
    h.Obj? && "name" in h.fields && h.fields["name"].Str? && "value" in h.fields
  }

  /** The position of the first header selected by `name`. */
  function FirstNamed(hs: seq<Value>, name: string): (r: Option<nat>)
    ensures r.Some? ==> r.value < |hs| && NamedHeader(hs[r.value], name)
    ensures r.Some? ==> forall j :: 0 <= j < r.value ==> !NamedHeader(hs[j], name)
    ensures r.None? <==> forall j :: 0 <= j < |hs| ==> !NamedHeader(hs[j], name)
    decreases |hs|
  {
    if hs == [] then None
    else if NamedHeader(hs[0], name) then Some(0)
    else match FirstNamed(hs[1..], name)
      case None => None
      case Some(k) => Some(k + 1)
  }

  /** `next((h["value"] for h in headers if h["name"].lower() == name), default)`:
      the value of the first selected header, else the default. Headers are
      read in order, and one without a string name raises on the way. */
  function FindHeader(hs: seq<Value>, name: string, default: Value): (r: Result<Value, PyError>)
    ensures (forall i :: 0 <= i < |hs| ==> ReadableHeader(hs[i])) ==> r.Ok?
    ensures r.Ok? && FirstNamed(hs, name).None? ==> r.value == default
    ensures r.Ok? && FirstNamed(hs, name).Some? ==>
      "value" in hs[FirstNamed(hs, name).value].fields && r.value == hs[FirstNamed(hs, name).value].fields["value"]
    decreases |hs|
  {
    if hs == [] then Ok(default)
    else
      var n :- PyGetItem(hs[0], "name");
      if !n.Str? then Err(AttributeError("lower"))
      else if Lower(n.s) == name then PyGetItem(hs[0], "value")
      else FindHeader(hs[1..], name, default)
  }

  /** The three header values `extract_headers` returns. */
  datatype Headers = Headers(subject: Value, sender: Value, date: Value)

  const DefaultHeaders := Headers(Str("No Subject"), Str("No Sender"), Str("No Date"))

  /** `not message or "payload" not in message`. */
  function LacksPayload(message: Value): Result<bool, PyError> {
    if !Truthy(message) then Ok(true)
    else
      var has :- PyContains(message, "payload");
      Ok(!has)
  }

  /** The header list of a message whose payload is a dict holding a list
      of headers. */
  function HeaderList(message: Value): Option<seq<Value>> {
    if message.Obj? && "payload" in message.fields && message.fields["payload"].Obj?
      && "headers" in message.fields["payload"].fields && message.fields["payload"].fields["headers"].Arr?
    then Some(message.fields["payload"].fields["headers"].items)
    else None
  }

  /** `extract_headers(message)`. */
  function ExtractHeaders(message: Value): (r: Result<Headers, PyError>)
    ensures !Truthy(message) ==> r == Ok(DefaultHeaders)
    ensures message.Obj? && "payload" !in message.fields ==> r == Ok(DefaultHeaders)
    ensures (message.Obj? && "payload" in message.fields && message.fields["payload"].Obj?
             && "headers" !in message.fields["payload"].fields) ==> r == Ok(DefaultHeaders)
    ensures HeaderList(message).Some? ==>
      (r.Ok? <==> FindHeader(HeaderList(message).value, "subject", Str("No Subject")).Ok?
                  && FindHeader(HeaderList(message).value, "from", Str("No Sender")).Ok?
                  && FindHeader(HeaderList(message).value, "date", Str("No Date")).Ok?)
    ensures HeaderList(message).Some? && r.Ok? ==>
      r.value == Headers(FindHeader(HeaderList(message).value, "subject", Str("No Subject")).value,
                         FindHeader(HeaderList(message).value, "from", Str("No Sender")).value,
                         FindHeader(HeaderList(message).value, "date", Str("No Date")).value)
  {
    var lacks :- LacksPayload(message);
    if lacks then Ok(DefaultHeaders)
    else
      var payload :- PyGet(message, "payload", Obj(map[]));
      var headers :- PyGet(payload, "headers", Arr([]));
      var hs :- PyIter(headers);
      var subject :- FindHeader(hs, "subject", Str("No Subject"));
      var sender :- FindHeader(hs, "from", Str("No Sender"));
      var date :- FindHeader(hs, "date", Str("No Date"));
      Ok(Headers(subject, sender, date))
  }

  /** The two body types the multipart scan accepts. */
  predicate TextMime(v: Value) {
    v == Str("text/plain") || v == Str("text/html")
  }

  /** `x.get("body", {}).get("data")` on a dict whose body is a dict or absent. */
  function DataOf(fields: map<string, Value>): Value {
    if "body" in fields && fields["body"].Obj? && "data" in fields["body"].fields
    then fields["body"].fields["data"] else Null
  }

  /** A part the multipart scan stops at: a text part with non-empty data. */
  predicate Qualifying(p: Value) {
    p.Obj? && "mimeType" in p.fields && TextMime(p.fields["mimeType"]) && Truthy(DataOf(p.fields))
  }

  /** A part the scan reads without raising. */
  predicate ReadablePart(p: Value) {
    p.Obj? && "mimeType" in p.fields
      && (TextMime(p.fields["mimeType"]) ==> "body" !in p.fields || p.fields["body"].Obj?)
  }

  /** The position of the first qualifying part. */
  function FirstQualifying(ps: seq<Value>): (r: Option<nat>)
    ensures r.Some? ==> r.value < |ps| && Qualifying(ps[r.value])
    ensures r.Some? ==> forall j :: 0 <= j < r.value ==> !Qualifying(ps[j])
    ensures r.None? <==> forall j :: 0 <= j < |ps| ==> !Qualifying(ps[j])
    decreases |ps|
  {
    if ps == [] then None
    else if Qualifying(ps[0]) then Some(0)
    else match FirstQualifying(ps[1..])
      case None => None
      case Some(k) => Some(k + 1)
  }

  /** `x.get("body", {}).get("data")`. */
  function BodyData(x: Value): (r: Result<Value, PyError>)
    ensures x.Obj? && ("body" !in x.fields || x.fields["body"].Obj?) ==> r == Ok(DataOf(x.fields))
  {
    var body :- PyGet(x, "body", Obj(map[]));
    PyGet(body, "data", Null)
  }

  /** The loop over `payload["parts"]`: the data of the first text part that
      has any, else `None`. */
  function ScanParts(ps: seq<Value>): (r: Result<Value, PyError>)
    ensures (forall i :: 0 <= i < |ps| ==> ReadablePart(ps[i])) ==> r.Ok?
    ensures r.Ok? && FirstQualifying(ps).None? ==> r.value == Null
    ensures r.Ok? && FirstQualifying(ps).Some? ==> r.value == DataOf(ps[FirstQualifying(ps).value].fields)
    decreases |ps|
  {
    if ps == [] then Ok(Null)
    else
      var mime :- PyGetItem(ps[0], "mimeType");
      if TextMime(mime) then
        var data :- BodyData(ps[0]);
        if Truthy(data) then Ok(data) else ScanParts(ps[1..])
      else ScanParts(ps[1..])
  }

  /** `extract_body_data(message)`. */
  function ExtractBodyData(message: Value): (r: Result<Value, PyError>)
    ensures !Truthy(message) ==> r == Ok(Null)
    ensures message.Obj? && "payload" !in message.fields ==> r == Ok(Null)
  {
    var lacks :- LacksPayload(message);
    if lacks then Ok(Null)
    else
      var payload :- PyGet(message, "payload", Obj(map[]));
      var hasParts :- PyContains(payload, "parts");
      if hasParts then
        var parts :- PyGetItem(payload, "parts");
        var ps :- PyIter(parts);
        ScanParts(ps)
      else
        var hasBody :- PyContains(payload, "body");
        if hasBody then BodyData(payload) else Ok(Null)
  }

  /** A message's payload, when it is a dict. */
  predicate HasPayload(message: Value) {
    message.Obj? && "payload" in message.fields && message.fields["payload"].Obj?
  }

  /** A multipart payload yields the data of its first qualifying part, and
      `None` when there is none: the payload's own body is never consulted. */
  lemma MultipartBody(message: Value)
    requires HasPayload(message)
    requires "parts" in message.fields["payload"].fields && message.fields["payload"].fields["parts"].Arr?
    ensures var ps := message.fields["payload"].fields["parts"].items;
      ExtractBodyData(message) == ScanParts(ps)
      && (ExtractBodyData(message).Ok? && FirstQualifying(ps).None? ==> ExtractBodyData(message).value == Null)
  {
    assert Truthy(message);
  }

  /** A payload without parts yields its body's data, and `None` when it has
      no body either. */
  lemma SimpleBody(message: Value)
    requires HasPayload(message) && "parts" !in message.fields["payload"].fields
    ensures "body" in message.fields["payload"].fields && message.fields["payload"].fields["body"].Obj? ==>
      ExtractBodyData(message) == Ok(DataOf(message.fields["payload"].fields))
    ensures "body" !in message.fields["payload"].fields ==> ExtractBodyData(message) == Ok(Null)
  {
    assert Truthy(message);
  }

  /** `decode_body(body_data)`: nothing for falsy data; a string goes to the
      decoder; anything else fails inside the `try` and gives `None`. */
  function DecodeBody(data: Value, b64: Base64Decoder): (r: Option<string>)
    ensures !Truthy(data) ==> r.None?
    ensures r.Some? ==> data.Str? && data.s != "" && r == b64(data.s)
    ensures data.Str? && data.s != "" ==> r == b64(data.s)
    ensures !data.Str? ==> r.None?
  {
    if !Truthy(data) then None
    else match data
      case Str(s) => b64(s)
      case _ => None
  }

  /** `decoded_body[:100]` for a non-empty decoded body, else `None`. */
  function Preview(decoded: Option<string>): (p: Option<string>)
    ensures p.Some? <==> Given(decoded)
    ensures p.Some? ==> 0 < |p.value| <= 100 && IsPrefix(p.value, decoded.value)
    ensures p.Some? && |decoded.value| <= 100 ==> p.value == decoded.value
    ensures p.Some? && |decoded.value| > 100 ==> p.value == decoded.value[..100]
  {
    if Given(decoded) then
      var d := decoded.value;
      Some(if |d| <= 100 then d else d[..100])
    else None
  }

  /** Pydantic validation of a `str` field. */
  function AsString(v: Value, field: string): (r: Result<string, PyError>)
    ensures r.Ok? <==> v.Str?
    ensures r.Ok? ==> r.value == v.s
    ensures r.Err? ==> r.error == ValidationError(field)
  {
    if v.Str? then Ok(v.s) else Err(ValidationError(field))
  }

  /** `build_email_from_message(msg_id, message)`. */
  function BuildEmailFromMessage(msgId: string, message: Value, b64: Base64Decoder): (r: Result<Email, PyError>)
    ensures r.Ok? <==> (message.Obj? && ExtractHeaders(message).Ok? && ExtractBodyData(message).Ok?
                        && ExtractHeaders(message).value.subject.Str? && ExtractHeaders(message).value.sender.Str?
                        && ExtractHeaders(message).value.date.Str?
                        && ("snippet" !in message.fields || message.fields["snippet"].Str?))
    ensures r.Ok? ==> r.value.id == msgId
    ensures r.Ok? ==> ExtractHeaders(message).Ok? && ExtractBodyData(message).Ok?
    ensures r.Ok? ==> Str(r.value.subject) == ExtractHeaders(message).value.subject
    ensures r.Ok? ==> Str(r.value.sender) == ExtractHeaders(message).value.sender
    ensures r.Ok? ==> Str(r.value.date) == ExtractHeaders(message).value.date
    ensures r.Ok? && message.Obj? && "snippet" !in message.fields ==> r.value.snippet == "No snippet available."
    ensures r.Ok? && message.Obj? && "snippet" in message.fields ==> Str(r.value.snippet) == message.fields["snippet"]
    ensures r.Ok? ==> r.value.bodyPreview == Preview(DecodeBody(ExtractBodyData(message).value, b64))
  {
    var headers :- ExtractHeaders(message);
    var snippet :- PyGet(message, "snippet", Str("No snippet available."));
    var bodyData :- ExtractBodyData(message);
    var preview := if Truthy(bodyData) then Preview(DecodeBody(bodyData, b64)) else None;
    var subject :- AsString(headers.subject, "subject");
    var sender :- AsString(headers.sender, "sender");
    var date :- AsString(headers.date, "date");
    var snippetText :- AsString(snippet, "snippet");
    Ok(Email(msgId, subject, sender, date, snippetText, preview))
  }

  /** A body preview is never longer than 100 characters and is the start of
      the decoded body. */
  lemma PreviewIsBoundedPrefix(msgId: string, message: Value, b64: Base64Decoder)
    requires BuildEmailFromMessage(msgId, message, b64).Ok?
    requires BuildEmailFromMessage(msgId, message, b64).value.bodyPreview.Some?
    ensures var e := BuildEmailFromMessage(msgId, message, b64).value;
      var data := ExtractBodyData(message).value;
      data.Str? && b64(data.s).Some?
      && 0 < |e.bodyPreview.value| <= 100 && IsPrefix(e.bodyPreview.value, b64(data.s).value)
      && (|b64(data.s).value| <= 100 ==> e.bodyPreview.value == b64(data.s).value)
      && (|b64(data.s).value| > 100 ==> e.bodyPreview.value == b64(data.s).value[..100])
  {
  }

  /** A dict message without a payload becomes an email with the three
      default headers and no body. */
  lemma MessageWithoutPayload(msgId: string, message: Value, b64: Base64Decoder)
    requires message.Obj? && "payload" !in message.fields
    requires "snippet" !in message.fields || message.fields["snippet"].Str?
    ensures BuildEmailFromMessage(msgId, message, b64)
      == Ok(Email(msgId, "No Subject", "No Sender", "No Date",
                  if "snippet" in message.fields then message.fields["snippet"].s else "No snippet available.",
                  None))
  {
  }

  /** The lines of `format_message_info`, before joining. */
  function InfoLines(e: Email): (ls: seq<string>)
    ensures |ls| == if Given(e.bodyPreview) then 6 else 5
  {
    var base := ["ID: " + e.id, "Subject: " + e.subject, "From: " + e.sender, "Date: " + e.date, "Snippet: " + e.snippet];
    if Given(e.bodyPreview) then base + ["Body (first 100 chars): " + e.bodyPreview.value + "..."] else base
  }

  /** `format_message_info(email)`. */
  function FormatMessageInfo(e: Email): string {
    Join(InfoLines(e), '\n')
  }

  /** The display text splits back into its lines, one labelled field per
      line in the order id, subject, sender, date, snippet, and a preview
      line exactly when there is a non-empty preview — as long as no field
      spans several lines. */
  lemma FormatMessageInfoLines(e: Email)
    requires '\n' !in e.id && '\n' !in e.subject && '\n' !in e.sender && '\n' !in e.date && '\n' !in e.snippet
    requires e.bodyPreview.Some? ==> '\n' !in e.bodyPreview.value
    ensures var ls := Split(FormatMessageInfo(e), '\n');
      |ls| == (if Given(e.bodyPreview) then 6 else 5)
      && ls[0] == "ID: " + e.id && ls[1] == "Subject: " + e.subject && ls[2] == "From: " + e.sender
      && ls[3] == "Date: " + e.date && ls[4] == "Snippet: " + e.snippet
      && (Given(e.bodyPreview) ==> ls[5] == "Body (first 100 chars): " + e.bodyPreview.value + "...")
  {
    var ls := InfoLines(e);
    forall i | 0 <= i < |ls|
      ensures '\n' !in ls[i]
    {
    }
    SplitJoin(ls, '\n');
  }
}

=== FILE: grouping.dfy ===
/** The grouping engine (src/email_summarizer/utils/grouping_utils.py): each
    email is handled by the first category, in a fixed order, whose pattern
    matches its sender. A high-priority match is passed on individually, a
    low-priority match only bumps that category's count, and an email that
    matches nothing is left ungrouped. */
module Grouping {
  import opened Wrappers
  import opened Models
  import opened Json

  /** A compiled regular expression: its source text and whether it was
      compiled with IGNORECASE. */
  datatype Pattern = Pattern(source: string, ignoreCase: bool)

  /** `re.search(pattern, sender)` is truthy. Regex semantics are not
      modelled: the caller supplies the matcher. */
  type Matcher = (Pattern, string) -> bool

  /** A category with its per-run accumulators: the first matching sender and
      the number of emails it took. */
  datatype GroupingCategory = GroupingCategory(
    regex: Pattern,
    name: string,
    sender: Option<string>,
    count: nat,
    highPriority: bool)

  /** What `group_emails` returns. */
  datatype GroupingPayload = GroupingPayload(
    listOfGroupedEmails: seq<GroupedEmails>,
    ungroupedEmails: seq<Email>,
    highPriorityEmails: seq<Email>)

  /** The two environment settings the categories are built from; `None`
      stands for an unset variable. */
  datatype GroupingEnv = GroupingEnv(spouseRegex: Option<string>, daycareRegex: Option<string>)

  const WarhornPattern := Pattern("warhorn", false)
  const NextdoorPattern := Pattern("nextdoor", false)

  /** Every accumulator still at its initial value. */
  predicate Fresh(cats: seq<GroupingCategory>) {
    forall j :: 0 <= j < |cats| ==> cats[j].count == 0 && cats[j].sender.None?
  }

  /** `_build_grouping_categories`: the two built-in low-priority patterns
      (case-sensitive) come first, then the two high-priority patterns read
      from the environment (case-insensitive). An unset variable makes
      `re.compile(None)` raise. */
  function BuildGroupingCategories(env: GroupingEnv): (r: Result<seq<GroupingCategory>, PyError>)
    ensures r.Ok? <==> env.spouseRegex.Some? && env.daycareRegex.Some?
    ensures r.Err? ==> r.error == TypeError
    ensures r.Ok? ==>
      && |r.value| == 4
      && Fresh(r.value)
      && r.value[0].name == "Warhorn" && r.value[1].name == "Nextdoor"
      && r.value[2].name == "Spouse" && r.value[3].name == "Daycare"
      && (forall j :: 0 <= j < 4 ==> (r.value[j].highPriority <==> j >= 2))
      && (forall j :: 0 <= j < 4 ==> (r.value[j].regex.ignoreCase <==> j >= 2))
      && r.value[0].regex.source == "warhorn" && r.value[1].regex.source == "nextdoor"
      && r.value[2].regex.source == env.spouseRegex.value
      && r.value[3].regex.source == env.daycareRegex.value
  {
    match (env.spouseRegex, env.daycareRegex)
    case (Some(spouse), Some(daycare)) =>
      Ok([
        GroupingCategory(WarhornPattern, "Warhorn", None, 0, false),
        GroupingCategory(NextdoorPattern, "Nextdoor", None, 0, false),
        GroupingCategory(Pattern(spouse, true), "Spouse", None, 0, true),
        GroupingCategory(Pattern(daycare, true), "Daycare", None, 0, true)
      ])
    case _ => Err(TypeError)
  }

  /** The inner `for … break` loop from category `k` on: the index of the
      first category whose pattern matches `sender`, if any. */
  function FirstMatchFrom(cats: seq<GroupingCategory>, matches: Matcher, sender: string, k: nat): (r: Option<nat>)
    requires k <= |cats|
    ensures r.Some? ==> k <= r.value < |cats| && matches(cats[r.value].regex, sender)
    ensures forall j :: k <= j < |cats| && (r.None? || j < r.value) ==> !matches(cats[j].regex, sender)
    decreases |cats| - k
  {
    if k == |cats| then None
    else if matches(cats[k].regex, sender) then Some(k)
    else FirstMatchFrom(cats, matches, sender, k + 1)
  }

  /** The category that handles an email from `sender`: the first, in list
      order, whose pattern matches. */
  function FirstMatch(cats: seq<GroupingCategory>, matches: Matcher, sender: string): (r: Option<nat>)
    ensures r.Some? ==> r.value < |cats| && matches(cats[r.value].regex, sender)
    ensures r.Some? ==> forall j :: 0 <= j < r.value ==> !matches(cats[j].regex, sender)
    ensures r.None? <==> forall j :: 0 <= j < |cats| ==> !matches(cats[j].regex, sender)
  {
    FirstMatchFrom(cats, matches, sender, 0)
  }

  function Last<T>(s: seq<T>): T
    requires |s| > 0
  {
    s[|s| - 1]
  }

  function Init<T>(s: seq<T>): seq<T>
    requires |s| > 0
  {
    s[..|s| - 1]
  }

  // Reference definitions of the outcome of the pass, one email at a time.

  /** The emails, in input order, whose sender matches no category. */
  function Unmatched(cats: seq<GroupingCategory>, matches: Matcher, es: seq<Email>): seq<Email>
    decreases |es|
  {
    if es == [] then []
    else
      var earlier := Unmatched(cats, matches, Init(es));
      earlier + (if FirstMatch(cats, matches, Last(es).sender).None? then [Last(es)] else [])
  }

  /** Whether the first category matching `sender` is a high-priority one. */
  predicate IsUrgent(cats: seq<GroupingCategory>, matches: Matcher, sender: string) {
    var hit := FirstMatch(cats, matches, sender);
    hit.Some? && cats[hit.value].highPriority
  }

  /** Whether the first category matching `sender` is a low-priority one. */
  predicate IsRoutine(cats: seq<GroupingCategory>, matches: Matcher, sender: string) {
    var hit := FirstMatch(cats, matches, sender);
    hit.Some? && !cats[hit.value].highPriority
  }

  /** The emails, in input order, whose first matching category is high priority. */
  function Urgent(cats: seq<GroupingCategory>, matches: Matcher, es: seq<Email>): seq<Email>
    decreases |es|
  {
    if es == [] then []
    else
      var earlier := Urgent(cats, matches, Init(es));
      earlier + (if IsUrgent(cats, matches, Last(es).sender) then [Last(es)] else [])
  }

  /** How many emails were handled by category `j`. */
  function MatchCount(cats: seq<GroupingCategory>, matches: Matcher, es: seq<Email>, j: nat): nat
    decreases |es|
  {
    if es == [] then 0
    else
      var earlier := MatchCount(cats, matches, Init(es), j);
      earlier + (if FirstMatch(cats, matches, Last(es).sender) == Some(j) then 1 else 0)
  }

  /** The sender of the first email handled by category `j`. */
  function FirstSender(cats: seq<GroupingCategory>, matches: Matcher, es: seq<Email>, j: nat): Option<string>
    decreases |es|
  {
    if es == [] then None
    else
      var earlier := FirstSender(cats, matches, Init(es), j);
      if earlier.Some? then earlier
      else if FirstMatch(cats, matches, Last(es).sender) == Some(j) then Some(Last(es).sender)
      else None
  }

  /** Python's `category.sender or category.name`: an unset or empty sender
      falls back to the category's name. */
  function Representative(sender: Option<string>, name: string): string {
    if sender.Some? && sender.value != "" then sender.value else name
  }

  /** The grouped line category `j` contributes: one entry when it is low
      priority and took at least one email, none otherwise. */
  function GroupedEntry(cats: seq<GroupingCategory>, matches: Matcher, es: seq<Email>, j: nat): seq<GroupedEmails>
    requires j < |cats|
  {
    var n := MatchCount(cats, matches, es, j);
    if n > 0 && !cats[j].highPriority
    then [GroupedEmails(Representative(FirstSender(cats, matches, es, j), cats[j].name), n)]
    else []
  }

  /** The grouped lines of categories `0 .. k-1`, in category order. */
  function GroupedUpTo(cats: seq<GroupingCategory>, matches: Matcher, es: seq<Email>, k: nat): seq<GroupedEmails>
    requires k <= |cats|
    decreases k
  {
    if k == 0 then []
    else GroupedUpTo(cats, matches, es, k - 1) + GroupedEntry(cats, matches, es, k - 1)
  }

  /** A category after the pass over `es`, starting fresh. */
  function Tallied(cats: seq<GroupingCategory>, matches: Matcher, es: seq<Email>, j: nat): GroupingCategory
    requires j < |cats|
  {
    cats[j].(count := MatchCount(cats, matches, es, j), sender := FirstSender(cats, matches, es, j))
  }

  /** One match recorded on a category: its count goes up and the first
      sender it saw is kept. */
  function Bump(c: GroupingCategory, sender: string): GroupingCategory {
    c.(count := c.count + 1, sender := if c.sender.None? then Some(sender) else c.sender)
  }

  lemma TalliedSnoc(cats: seq<GroupingCategory>, matches: Matcher, es: seq<Email>, e: Email, j: nat)
    requires j < |cats|
    ensures Tallied(cats, matches, es + [e], j)
      == if FirstMatch(cats, matches, e.sender) == Some(j) then Bump(Tallied(cats, matches, es, j), e.sender)
         else Tallied(cats, matches, es, j)
  {
    assert Init(es + [e]) == es && Last(es + [e]) == e;
  }

  /** The categories after one email: the hit category, if any, is bumped. */
  function Step(state: seq<GroupingCategory>, hit: Option<nat>, sender: string): (r: seq<GroupingCategory>)
    ensures |r| == |state|
  {
    if hit.Some? && hit.value < |state| then state[hit.value := Bump(state[hit.value], sender)] else state
  }

  lemma StepTallies(cats: seq<GroupingCategory>, matches: Matcher, es: seq<Email>, e: Email,
                    state: seq<GroupingCategory>)
    requires |state| == |cats|
    requires forall j :: 0 <= j < |cats| ==> state[j] == Tallied(cats, matches, es, j)
    ensures forall j :: 0 <= j < |cats| ==>
      Step(state, FirstMatch(cats, matches, e.sender), e.sender)[j] == Tallied(cats, matches, es + [e], j)
  {
    forall j | 0 <= j < |cats|
      ensures Step(state, FirstMatch(cats, matches, e.sender), e.sender)[j] == Tallied(cats, matches, es + [e], j)
    {
      TalliedSnoc(cats, matches, es, e, j);
    }
  }

  lemma UrgentSnoc(cats: seq<GroupingCategory>, matches: Matcher, es: seq<Email>, e: Email)
    ensures Urgent(cats, matches, es + [e])
      == Urgent(cats, matches, es) + if IsUrgent(cats, matches, e.sender) then [e] else []
  {
    assert Init(es + [e]) == es && Last(es + [e]) == e;
  }

  lemma UnmatchedSnoc(cats: seq<GroupingCategory>, matches: Matcher, es: seq<Email>, e: Email)
    ensures Unmatched(cats, matches, es + [e])
      == Unmatched(cats, matches, es) + if FirstMatch(cats, matches, e.sender).None? then [e] else []
  {
    assert Init(es + [e]) == es && Last(es + [e]) == e;
  }

  /** The first loop of `group_emails` (lines 62-72) over fresh categories:
      the tallied categories, the high-priority list and the ungrouped list. */
  method TallyPass(emails: seq<Email>, cats: seq<GroupingCategory>, matches: Matcher)
    returns (state: seq<GroupingCategory>, high: seq<Email>, ungrouped: seq<Email>)
    requires Fresh(cats)
    ensures |state| == |cats|
    ensures forall j :: 0 <= j < |cats| ==> state[j] == Tallied(cats, matches, emails, j)
    ensures high == Urgent(cats, matches, emails)
    ensures ungrouped == Unmatched(cats, matches, emails)
  {
    state := cats;
    high := [];
    ungrouped := [];
    var i := 0;
    while i < |emails|
      invariant 0 <= i <= |emails|
      invariant |state| == |cats|
      invariant forall j :: 0 <= j < |cats| ==> state[j] == Tallied(cats, matches, emails[..i], j)
      invariant high == Urgent(cats, matches, emails[..i])
      invariant ungrouped == Unmatched(cats, matches, emails[..i])
    {
      var email := emails[i];
      assert emails[..i + 1] == emails[..i] + [email];
      StepTallies(cats, matches, emails[..i], email, state);
      UrgentSnoc(cats, matches, emails[..i], email);
      UnmatchedSnoc(cats, matches, emails[..i], email);
      var hit := FirstMatch(cats, matches, email.sender);
      state := Step(state, hit, email.sender);
      if hit.None? {
        ungrouped := ungrouped + [email];
      } else if IsUrgent(cats, matches, email.sender) {
        high := high + [email];
      }
      i := i + 1;
    }
    assert emails[..i] == emails;
  }

  /** The second loop of `group_emails` (lines 75-82): one entry per
      low-priority category that took an email, in category order. */
  method CollectGrouped(emails: seq<Email>, cats: seq<GroupingCategory>, matches: Matcher,
                        state: seq<GroupingCategory>)
    returns (grouped: seq<GroupedEmails>)
    requires |state| == |cats|
    requires forall j :: 0 <= j < |cats| ==> state[j] == Tallied(cats, matches, emails, j)
    ensures grouped == GroupedUpTo(cats, matches, emails, |cats|)
  {
    grouped := [];
    var k := 0;
    while k < |state|
      invariant 0 <= k <= |state|
      invariant grouped == GroupedUpTo(cats, matches, emails, k)
    {
      var c := state[k];
      if c.count > 0 && !c.highPriority {
        grouped := grouped + [GroupedEmails(Representative(c.sender, c.name), c.count)];
      }
      k := k + 1;
    }
  }

  /** The pass of `group_emails` over fresh categories (lines 58-87). */
  method GroupPass(emails: seq<Email>, cats: seq<GroupingCategory>, matches: Matcher)
    returns (payload: GroupingPayload)
    requires Fresh(cats)
    ensures payload.ungroupedEmails == Unmatched(cats, matches, emails)
    ensures payload.highPriorityEmails == Urgent(cats, matches, emails)
    ensures payload.listOfGroupedEmails == GroupedUpTo(cats, matches, emails, |cats|)
  {
    var state, high, ungrouped := TallyPass(emails, cats, matches);
    var grouped := CollectGrouped(emails, cats, matches, state);
    payload := GroupingPayload(grouped, ungrouped, high);
  }

  /** `group_emails`: build fresh categories from the environment, then run
      the pass over them. */
  method GroupEmails(emails: seq<Email>, env: GroupingEnv, matches: Matcher)
    returns (r: Result<GroupingPayload, PyError>, cats: seq<GroupingCategory>)
    ensures r.Err? <==> env.spouseRegex.None? || env.daycareRegex.None?
    ensures r.Ok? ==> BuildGroupingCategories(env) == Ok(cats)
    ensures r.Ok? ==> r.value.ungroupedEmails == Unmatched(cats, matches, emails)
    ensures r.Ok? ==> r.value.highPriorityEmails == Urgent(cats, matches, emails)
    ensures r.Ok? ==> r.value.listOfGroupedEmails == GroupedUpTo(cats, matches, emails, |cats|)
  {
    var built := BuildGroupingCategories(env);
    if built.Err? {
      return Err(built.error), [];
    }
    cats := built.value;
    var payload := GroupPass(emails, cats, matches);
    r := Ok(payload);
  }

  // Properties of the pass.

  /** `a` is `b` with some elements left out, the rest kept in order. */
  predicate IsSubsequence<T(==)>(a: seq<T>, b: seq<T>)
    decreases |b|
  {
    |a| == 0 || (|b| > 0 && ((Last(a) == Last(b) && IsSubsequence(Init(a), Init(b))) || IsSubsequence(a, Init(b))))
  }

  /** An email is left ungrouped exactly when no category matches its sender. */
  lemma {:induction false} UnmatchedIff(cats: seq<GroupingCategory>, matches: Matcher, es: seq<Email>, e: Email)
    ensures e in Unmatched(cats, matches, es) <==> e in es && FirstMatch(cats, matches, e.sender).None?
    decreases |es|
  {
    if es != [] {
      assert es == Init(es) + [Last(es)];
      UnmatchedIff(cats, matches, Init(es), e);
    }
  }

  /** An email is passed on as high priority exactly when its first matching
      category is a high-priority one. */
  lemma {:induction false} UrgentIff(cats: seq<GroupingCategory>, matches: Matcher, es: seq<Email>, e: Email)
    ensures e in Urgent(cats, matches, es) <==> e in es && IsUrgent(cats, matches, e.sender)
    decreases |es|
  {
    if es != [] {
      assert es == Init(es) + [Last(es)];
      UrgentIff(cats, matches, Init(es), e);
    }
  }

  /** No email is both ungrouped and high priority. */
  lemma UngroupedAndUrgentDisjoint(cats: seq<GroupingCategory>, matches: Matcher, es: seq<Email>, e: Email)
    ensures !(e in Unmatched(cats, matches, es) && e in Urgent(cats, matches, es))
  {
    UnmatchedIff(cats, matches, es, e);
    UrgentIff(cats, matches, es, e);
  }

  /** Both email lists keep the input's order. */
  lemma {:induction false} OutputsAreSubsequences(cats: seq<GroupingCategory>, matches: Matcher, es: seq<Email>)
    ensures IsSubsequence(Unmatched(cats, matches, es), es)
    ensures IsSubsequence(Urgent(cats, matches, es), es)
    decreases |es|
  {
    if es != [] {
      OutputsAreSubsequences(cats, matches, Init(es));
      var u := Unmatched(cats, matches, es);
      var h := Urgent(cats, matches, es);
      if u != Unmatched(cats, matches, Init(es)) {
        assert Last(u) == Last(es) && Init(u) == Unmatched(cats, matches, Init(es));
      }
      if h != Urgent(cats, matches, Init(es)) {
        assert Last(h) == Last(es) && Init(h) == Urgent(cats, matches, Init(es));
      }
    }
  }

  /** How many emails went to a low-priority category. */
  function Routine(cats: seq<GroupingCategory>, matches: Matcher, es: seq<Email>): nat
    decreases |es|
  {
    if es == [] then 0
    else
      var earlier := Routine(cats, matches, Init(es));
      earlier + (if IsRoutine(cats, matches, Last(es).sender) then 1 else 0)
  }

  /** The sum of the `count` fields of grouped lines. */
  function SumCounts(gs: seq<GroupedEmails>): int
    decreases |gs|
  {
    if gs == [] then 0 else SumCounts(Init(gs)) + Last(gs).count
  }

  /** The emails taken by the low-priority categories among `0 .. k-1`. */
  function LowSum(cats: seq<GroupingCategory>, matches: Matcher, es: seq<Email>, k: nat): nat
    requires k <= |cats|
    decreases k
  {
    if k == 0 then 0
    else LowSum(cats, matches, es, k - 1) + (if !cats[k - 1].highPriority then MatchCount(cats, matches, es, k - 1) else 0)
  }

  lemma {:induction false} EachEmailOnce(cats: seq<GroupingCategory>, matches: Matcher, es: seq<Email>)
    ensures |es| == Routine(cats, matches, es) + |Urgent(cats, matches, es)| + |Unmatched(cats, matches, es)|
    decreases |es|
  {
    if es != [] {
      EachEmailOnce(cats, matches, Init(es));
    }
  }

  lemma {:induction false} GroupedSumIsLowSum(cats: seq<GroupingCategory>, matches: Matcher, es: seq<Email>, k: nat)
    requires k <= |cats|
    ensures SumCounts(GroupedUpTo(cats, matches, es, k)) == LowSum(cats, matches, es, k)
    decreases k
  {
    if k > 0 {
      GroupedSumIsLowSum(cats, matches, es, k - 1);
      var before := GroupedUpTo(cats, matches, es, k - 1);
      var entry := GroupedEntry(cats, matches, es, k - 1);
      var n := MatchCount(cats, matches, es, k - 1);
      assert GroupedUpTo(cats, matches, es, k) == before + entry;
      assert LowSum(cats, matches, es, k)
        == LowSum(cats, matches, es, k - 1) + (if !cats[k - 1].highPriority then n else 0);
      if n > 0 && !cats[k - 1].highPriority {
        var g := entry[0];
        assert entry == [g] && g.count == n;
        SumCountsSnoc(before, g);
      } else {
        assert entry == [];
        assert before + entry == before;
      }
    }
  }

  lemma SumCountsSnoc(gs: seq<GroupedEmails>, g: GroupedEmails)
    ensures SumCounts(gs + [g]) == SumCounts(gs) + g.count
  {
    assert Init(gs + [g]) == gs;
  }

  lemma {:induction false} LowSumStep(cats: seq<GroupingCategory>, matches: Matcher, es: seq<Email>, k: nat)
    requires es != [] && k <= |cats|
    ensures
      var hit := FirstMatch(cats, matches, Last(es).sender);
      LowSum(cats, matches, es, k)
        == LowSum(cats, matches, Init(es), k) + (if hit.Some? && hit.value < k && !cats[hit.value].highPriority then 1 else 0)
    decreases k
  {
    if k > 0 {
      LowSumStep(cats, matches, es, k - 1);
    }
  }

  lemma {:induction false} LowSumIsRoutine(cats: seq<GroupingCategory>, matches: Matcher, es: seq<Email>)
    ensures LowSum(cats, matches, es, |cats|) == Routine(cats, matches, es)
    decreases |es|
  {
    if es == [] {
      LowSumOfNothing(cats, matches, |cats|);
    } else {
      LowSumStep(cats, matches, es, |cats|);
      LowSumIsRoutine(cats, matches, Init(es));
    }
  }

  lemma {:induction false} LowSumOfNothing(cats: seq<GroupingCategory>, matches: Matcher, k: nat)
    requires k <= |cats|
    ensures LowSum(cats, matches, [], k) == 0
    decreases k
  {
    if k > 0 {
      LowSumOfNothing(cats, matches, k - 1);
    }
  }

  /** Partition: every email is counted exactly once, as part of a grouped
      line's count, as a high-priority email or as an ungrouped email. */
  lemma Partition(cats: seq<GroupingCategory>, matches: Matcher, es: seq<Email>)
    ensures SumCounts(GroupedUpTo(cats, matches, es, |cats|))
      + |Urgent(cats, matches, es)| + |Unmatched(cats, matches, es)| == |es|
  {
    GroupedSumIsLowSum(cats, matches, es, |cats|);
    LowSumIsRoutine(cats, matches, es);
    EachEmailOnce(cats, matches, es);
  }

  /** A category's representative sender is the sender of the first email it
      took, and it has one exactly when it took any email. */
  lemma {:induction false} FirstSenderIsFirst(cats: seq<GroupingCategory>, matches: Matcher, es: seq<Email>, j: nat)
    ensures FirstSender(cats, matches, es, j).Some? <==> MatchCount(cats, matches, es, j) > 0
    ensures FirstSender(cats, matches, es, j).None? ==>
      forall i :: 0 <= i < |es| ==> FirstMatch(cats, matches, es[i].sender) != Some(j)
    ensures FirstSender(cats, matches, es, j).Some? ==>
      exists i :: 0 <= i < |es| && es[i].sender == FirstSender(cats, matches, es, j).value
        && FirstMatch(cats, matches, es[i].sender) == Some(j)
        && forall i' :: 0 <= i' < i ==> FirstMatch(cats, matches, es[i'].sender) != Some(j)
    decreases |es|
  {
    if es != [] {
      var init := Init(es);
      FirstSenderIsFirst(cats, matches, init, j);
      assert forall i :: 0 <= i < |init| ==> es[i] == init[i];
      if FirstSender(cats, matches, init, j).Some? {
        var i :| 0 <= i < |init| && init[i].sender == FirstSender(cats, matches, init, j).value
          && FirstMatch(cats, matches, init[i].sender) == Some(j)
          && forall i' :: 0 <= i' < i ==> FirstMatch(cats, matches, init[i'].sender) != Some(j);
        assert es[i] == init[i];
      } else if FirstMatch(cats, matches, Last(es).sender) == Some(j) {
        assert es[|es| - 1] == Last(es);
      }
    }
  }

  /** Every grouped line counts at least one email. */
  lemma {:induction false} GroupedCountsPositive(cats: seq<GroupingCategory>, matches: Matcher, es: seq<Email>, k: nat)
    requires k <= |cats|
    ensures forall g :: g in GroupedUpTo(cats, matches, es, k) ==> g.count > 0
    decreases k
  {
    if k > 0 {
      GroupedCountsPositive(cats, matches, es, k - 1);
    }
  }

  /** No email, no output: three empty lists. */
  lemma {:induction false} NothingToGroup(cats: seq<GroupingCategory>, matches: Matcher, k: nat)
    requires k <= |cats|
    ensures GroupedUpTo(cats, matches, [], k) == []
    ensures Unmatched(cats, matches, []) == [] && Urgent(cats, matches, []) == []
    decreases k
  {
    if k > 0 {
      NothingToGroup(cats, matches, k - 1);
    }
  }

  /** The built-in categories come first, so a sender that matches the
      Nextdoor pattern is counted there even when it also matches a
      high-priority pattern. */
  lemma BuiltinsWinTies(env: GroupingEnv, matches: Matcher, cats: seq<GroupingCategory>, sender: string)
    requires BuildGroupingCategories(env) == Ok(cats)
    requires matches(NextdoorPattern, sender)
    ensures IsRoutine(cats, matches, sender) && !IsUrgent(cats, matches, sender)
  {
  }

  /** With the four built categories the grouped list is at most the Warhorn
      line followed by the Nextdoor line: the high-priority categories never
      contribute one. */
  lemma BuiltGroupedLines(env: GroupingEnv, matches: Matcher, cats: seq<GroupingCategory>, es: seq<Email>)
    requires BuildGroupingCategories(env) == Ok(cats)
    ensures GroupedUpTo(cats, matches, es, |cats|)
      == GroupedEntry(cats, matches, es, 0) + GroupedEntry(cats, matches, es, 1)
    ensures |GroupedUpTo(cats, matches, es, |cats|)| <= 2
  {
    assert GroupedEntry(cats, matches, es, 2) == [] && GroupedEntry(cats, matches, es, 3) == [];
    assert GroupedUpTo(cats, matches, es, 1) == GroupedEntry(cats, matches, es, 0);
    assert GroupedUpTo(cats, matches, es, 4) == GroupedUpTo(cats, matches, es, 2);
  }
}

=== FILE: json.dfy ===
/** A JSON-like value standing for the Python dicts, lists and scalars the
    services walk over, with the few Python operations applied to them
    (`in`, `x[key]`, `x.get(key, default)`, iteration, `len`, truthiness).
    A raised exception becomes a `PyError` inside a `Result`. */
module Json {
  import opened Wrappers
  import Text

  /** Python `None` is `Null`; floats are carried as exact reals. */
  datatype Value =
    | Null
    | Bool(b: bool)
    | Int(i: int)
    | Float(f: real)
    | Str(s: string)
    | Arr(items: seq<Value>)
    | Obj(fields: map<string, Value>)

  /** The Python exceptions the modelled code can raise. */
  datatype PyError =
    | KeyError(key: string)
    | TypeError
    | AttributeError(name: string)
    | ValueError(message: string)
    | ValidationError(field: string)

  /** Python truthiness (`if v:` / `v or w`). */
  predicate Truthy(v: Value) {
    match v
    case Null => false
    case Bool(b) => b
    case Int(i) => i != 0
    case Float(f) => f != 0.0
    case Str(s) => s != ""
    case Arr(xs) => xs != []
    case Obj(m) => |m| != 0
  }

  /** Python's `key in v` for a string key: a dict tests its keys, a list its
      elements, a string its substrings; anything else is not iterable. */
  function PyContains(v: Value, key: string): (r: Result<bool, PyError>)
    ensures v.Obj? ==> r == Ok(key in v.fields)
    ensures (v.Null? || v.Bool? || v.Int? || v.Float?) ==> r == Err(TypeError)
  {
    match v
    case Obj(m) => Ok(key in m)
    case Arr(xs) => Ok(Str(key) in xs)
    case Str(s) => Ok(Text.Contains(s, key))
    case _ => Err(TypeError)
  }

  /** Python's `v[key]` for a string key: only a dict can be indexed by one. */
  function PyGetItem(v: Value, key: string): (r: Result<Value, PyError>)
    ensures r.Ok? <==> v.Obj? && key in v.fields
    ensures r.Ok? ==> r.value == v.fields[key]
    ensures v.Obj? && key !in v.fields ==> r == Err(KeyError(key))
  {
    match v
    case Obj(m) => if key in m then Ok(m[key]) else Err(KeyError(key))
    case _ => Err(TypeError)
  }

  /** Python's `v.get(key, default)`: only a dict has `get`. */
  function PyGet(v: Value, key: string, default: Value): (r: Result<Value, PyError>)
    ensures r.Ok? <==> v.Obj?
    ensures v.Obj? ==> r.value == if key in v.fields then v.fields[key] else default
  {
    match v
    case Obj(m) => Ok(if key in m then m[key] else default)
    case _ => Err(AttributeError("get"))
  }

  /** Python's `for x in v`: a list yields its elements, a string its
      one-character strings. */
  function PyIter(v: Value): (r: Result<seq<Value>, PyError>)
    ensures v.Arr? ==> r == Ok(v.items)
    ensures v.Str? ==> r.Ok? && |r.value| == |v.s|
  {
    match v
    case Arr(xs) => Ok(xs)
    case Str(s) => Ok(seq(|s|, i requires 0 <= i < |s| => Str([s[i]])))
    case _ => Err(TypeError)
  }

  /** Python's `len(v)`. */
  function PyLen(v: Value): (r: Result<nat, PyError>)
    ensures v.Arr? ==> r == Ok(|v.items|)
    ensures r.Ok? ==> (r.value == 0 <==> !Truthy(v))
  {
    match v
    case Arr(xs) => Ok(|xs|)
    case Str(s) => Ok(|s|)
    case Obj(m) => Ok(|m|)
    case _ => Err(TypeError)
  }

  /** One step of a path into a value: a dict key or a list position. */
  datatype PathStep = Key(key: string) | Index(index: nat)

  /** The value reached by following `path`, written the way the tests index
      into request bodies (`body["messages"][0]["content"][0]["text"]`). */
  function At(v: Value, path: seq<PathStep>): Option<Value>
    decreases |path|
  {
    if path == [] then Some(v)
    else
      match (v, path[0])
      case (Obj(m), Key(k)) => if k in m then At(m[k], path[1..]) else None
      case (Arr(xs), Index(i)) => if i < |xs| then At(xs[i], path[1..]) else None
      case _ => None
  }

  /** Following a path into a dict goes through the value under its first key. */
  lemma AtKey(v: Value, k: string, rest: seq<PathStep>)
    requires v.Obj? && k in v.fields
    ensures At(v, [Key(k)] + rest) == At(v.fields[k], rest)
  {
    assert ([Key(k)] + rest)[1..] == rest;
  }
}

=== FILE: modelinfo.dfy ===
/** `get_model_info`, written the same way in both Anthropic clients: the
    provider is decided by a substring test on the lower-cased id and the
    version is the text after the id's last "-". */
module ModelInfo {
  import opened Wrappers
  import opened Text
  import opened Json
  import opened Settings

  datatype ModelInfo = ModelInfo(modelId: string, region: Option<string>, provider: string, version: string)

  /** `"Anthropic" if "anthropic" in model_id.lower() else "Unknown"`. */
  function Provider(modelId: string): (p: string)
    ensures p == "Anthropic" <==> Contains(Lower(modelId), "anthropic")
    ensures p == "Anthropic" || p == "Unknown"
  {
    if Contains(Lower(modelId), "anthropic") then "Anthropic" else "Unknown"
  }

  /** `model_id.split("-")[-1] if "-" in model_id else "Unknown"`. */
  function Version(modelId: string): (v: string)
    ensures '-' !in modelId ==> v == "Unknown"
    ensures '-' in modelId ==> '-' !in v && |v| < |modelId|
    ensures '-' in modelId ==> modelId == modelId[..|modelId| - |v| - 1] + "-" + v
  {
    if '-' in modelId then LastSegment(modelId, '-') else "Unknown"
  }

  /** The version read off an id is exactly the text written after its last
      "-", whatever comes before it. */
  lemma VersionAfterLastDash(prefix: string, version: string)
    requires '-' !in version
    ensures Version(prefix + "-" + version) == version
  {
    assert (prefix + "-" + version)[|prefix|] == '-';
    LastSegmentOf(prefix, version, '-');
  }

  lemma {:induction false} LowerIdempotent(s: string)
    ensures Lower(Lower(s)) == Lower(s)
  {
    assert forall i :: 0 <= i < |s| ==> LowerChar(LowerChar(s[i])) == LowerChar(s[i]);
  }

  /** The provider test ignores case: an id and its lower-cased form have the
      same provider. */
  lemma ProviderIgnoresCase(modelId: string)
    ensures Provider(Lower(modelId)) == Provider(modelId)
  {
    LowerIdempotent(modelId);
  }

  /** `get_model_info(target)`: the id is `target or default`; an id that is
      still `None` fails on `.lower()`. */
  function Describe(target: Option<string>, default: Option<string>, region: Option<string>): (r: Result<ModelInfo, PyError>)
    ensures r.Err? <==> !Given(target) && default.None?
    ensures r.Err? ==> r.error == AttributeError("lower")
    ensures r.Ok? && Given(target) ==> r.value.modelId == target.value
    ensures r.Ok? && !Given(target) ==> r.value.modelId == default.value
    ensures r.Ok? ==> r.value.region == region
    ensures r.Ok? ==> r.value.provider == Provider(r.value.modelId) && r.value.version == Version(r.value.modelId)
  {
    match OrElse(target, default)
    case None => Err(AttributeError("lower"))
    case Some(id) => Ok(ModelInfo(id, region, Provider(id), Version(id)))
  }
}

=== FILE: models.dfy ===
/** The records the triage flow passes around: a fetched email, a grouped-sender
    count, the two generated-text wrappers and the report itself. */
module Models {
  import opened Wrappers

  /** A normalised mail message; `bodyPreview` is absent when no body text
      could be decoded. */
  datatype Email = Email(
    id: string,
    subject: string,
    sender: string,
    date: string,
    snippet: string,
    bodyPreview: Option<string>)

  /** One low-priority category folded into a single line: a representative
      sender and how many emails matched. */
  datatype GroupedEmails = GroupedEmails(sender: string, count: int)

  /** A generated summary of one regular email. */
  datatype Summary = Summary(body: string, email: Email)

  /** Generated next steps for one high-priority email. */
  datatype ActionableEmail = ActionableEmail(email: Email, nextSteps: string)

  /** The mailbox a report is about. */
  datatype EmailAccount = Primary | NoReply | Alternate {

    /** The enum member's value, as shown in the report header. */
    function Value(): string {
      match this
      case Primary => "PRIMARY"
      case NoReply => "NOREPLY"
      case Alternate => "ALTERNATE"
    }
  }

  /** The compiled report of one run. */
  datatype EmailReport = EmailReport(
    emailAccount: EmailAccount,
    summaries: seq<Summary>,
    timestamp: string,
    groupedEmails: seq<GroupedEmails>,
    actionableEmails: seq<ActionableEmail>)
  {
    /** Nothing to report: no summary, no grouped entry and no actionable
        email. Only the lengths are looked at, never an entry's content. */
    predicate IsEmpty()
      ensures IsEmpty() <==>
        (forall s :: s !in summaries) && (forall g :: g !in groupedEmails) && (forall a :: a !in actionableEmails)
    {
      assert |summaries| > 0 ==> summaries[0] in summaries;
      assert |groupedEmails| > 0 ==> groupedEmails[0] in groupedEmails;
      assert |actionableEmails| > 0 ==> actionableEmails[0] in actionableEmails;
      |summaries| == 0 && |groupedEmails| == 0 && |actionableEmails| == 0
    }
  }

  /** A grouped entry that counts nothing still makes a report non-empty,
      because emptiness is decided by list lengths alone. */
  lemma ZeroCountGroupIsNotEmpty(account: EmailAccount, timestamp: string, sender: string)
    ensures !EmailReport(account, [], timestamp, [GroupedEmails(sender, 0)], []).IsEmpty()
  {
    var g := GroupedEmails(sender, 0);
    assert g in [g];
  }

  /** Emptiness ignores the account and the timestamp. */
  lemma IsEmptyIgnoresHeader(r: EmailReport, account: EmailAccount, timestamp: string)
    ensures r.(emailAccount := account, timestamp := timestamp).IsEmpty() == r.IsEmpty()
  {
  }

  /** Adding one entry to any of the three lists makes a report non-empty. */
  lemma AddingMakesNonEmpty(r: EmailReport, s: Summary, g: GroupedEmails, a: ActionableEmail)
    ensures !r.(summaries := r.summaries + [s]).IsEmpty()
    ensures !r.(groupedEmails := r.groupedEmails + [g]).IsEmpty()
    ensures !r.(actionableEmails := r.actionableEmails + [a]).IsEmpty()
  {
    assert s in r.summaries + [s];
    assert g in r.groupedEmails + [g];
    assert a in r.actionableEmails + [a];
  }
}

=== FILE: nova.dfy ===
/** `NovaClient` and `NovaClientFactory` of
    src/email_summarizer/services/nova_client.py: the request body, the
    reading of an already JSON-decoded answer, and the memoising factory. */
module Nova {
  import opened Wrappers
  import opened Json
  import opened Settings
  import Converse
  import General

  /** The Bedrock runtime handle a client is built around, by identity. */
  type BedrockHandle = nat

  datatype NovaClient = NovaClient(bedrock: BedrockHandle, modelId: Option<string>, temperature: real, maxTokens: int)

  /** `[{"text": system_prompt or ""}]`. */
  function SystemList(systemPrompt: Option<string>): (v: Value)
    ensures At(v, [Index(0), Key("text")]) == Some(Str(if Given(systemPrompt) then systemPrompt.value else ""))
  {
    var block := Obj(map["text" := Str(if Given(systemPrompt) then systemPrompt.value else "")]);
    assert At(Arr([block]), [Index(0), Key("text")]) == At(block, [Key("text")]);
    Arr([block])
  }

  /** The sampling settings: the client's token limit and temperature, with
      topP 0.7 and topK 20 fixed. */
  function InferenceConfig(c: NovaClient): (v: Value)
    ensures At(v, [Key("maxTokens")]) == Some(Int(c.maxTokens))
    ensures At(v, [Key("temperature")]) == Some(Float(c.temperature))
    ensures At(v, [Key("topP")]) == Some(Float(0.7))
    ensures At(v, [Key("topK")]) == Some(Int(20))
  {
    Obj(map[
      "maxTokens" := Int(c.maxTokens),
      "topP" := Float(0.7),
      "topK" := Int(20),
      "temperature" := Float(c.temperature)])
  }

  /** `_build_request_body(prompt, system_prompt)`: exactly four top-level
      keys. What sits under them is stated by `RequestBodyMessages`,
      `RequestBodySystem` and `RequestBodyConfig`. */
  function BuildRequestBody(c: NovaClient, prompt: string, systemPrompt: Option<string>): (body: Value)
    ensures body.Obj? && body.fields.Keys == {"schemaVersion", "messages", "system", "inferenceConfig"}
    ensures At(body, [Key("schemaVersion")]) == Some(Str("messages-v1"))
  {
    Obj(map[
      "schemaVersion" := Str("messages-v1"),
      "messages" := Converse.Conversation(prompt),
      "system" := SystemList(systemPrompt),
      "inferenceConfig" := InferenceConfig(c)])
  }

  /** The body carries one user turn whose text is the prompt. */
  lemma RequestBodyMessages(c: NovaClient, prompt: string, systemPrompt: Option<string>)
    ensures At(BuildRequestBody(c, prompt, systemPrompt), [Key("messages")]) == Some(Converse.Conversation(prompt))
    ensures At(BuildRequestBody(c, prompt, systemPrompt),
               [Key("messages"), Index(0), Key("content"), Index(0), Key("text")]) == Some(Str(prompt))
  {
    var body := BuildRequestBody(c, prompt, systemPrompt);
    AtKey(body, "messages", []);
    AtKey(body, "messages", [Index(0), Key("content"), Index(0), Key("text")]);
  }

  /** The system text is the system prompt, or "" when it is absent or empty. */
  lemma RequestBodySystem(c: NovaClient, prompt: string, systemPrompt: Option<string>)
    ensures At(BuildRequestBody(c, prompt, systemPrompt), [Key("system"), Index(0), Key("text")])
      == Some(Str(if Given(systemPrompt) then systemPrompt.value else ""))
  {
    AtKey(BuildRequestBody(c, prompt, systemPrompt), "system", [Index(0), Key("text")]);
  }

  /** The inference settings are the client's, with topP 0.7 and topK 20. */
  lemma RequestBodyConfig(c: NovaClient, prompt: string, systemPrompt: Option<string>)
    ensures At(BuildRequestBody(c, prompt, systemPrompt), [Key("inferenceConfig"), Key("maxTokens")]) == Some(Int(c.maxTokens))
    ensures At(BuildRequestBody(c, prompt, systemPrompt), [Key("inferenceConfig"), Key("temperature")]) == Some(Float(c.temperature))
    ensures At(BuildRequestBody(c, prompt, systemPrompt), [Key("inferenceConfig"), Key("topP")]) == Some(Float(0.7))
    ensures At(BuildRequestBody(c, prompt, systemPrompt), [Key("inferenceConfig"), Key("topK")]) == Some(Int(20))
  {
    var body := BuildRequestBody(c, prompt, systemPrompt);
    AtKey(body, "inferenceConfig", [Key("maxTokens")]);
    AtKey(body, "inferenceConfig", [Key("temperature")]);
    AtKey(body, "inferenceConfig", [Key("topP")]);
    AtKey(body, "inferenceConfig", [Key("topK")]);
  }

  const ContentPath: seq<string> := ["output", "message", "content"]

  const EmptyContentMessage := "Empty content found in Nova response"

  /** Python's `v[0]` on a value whose `len` is positive. */
  function PyFirst(v: Value): (r: Result<Value, PyError>)
    requires PyLen(v).Ok? && PyLen(v).value > 0
    ensures v.Arr? ==> r == Ok(v.items[0])
  {
    match v
    case Arr(xs) => Ok(xs[0])
    case Str(s) => Ok(Str([s[0]]))
    case _ => Err(KeyError("0"))
  }

  /** `_parse_response`, from the decoded body on: dig out the content list
      (a missing key raises), treat a falsy result as `[]`, refuse an empty
      list, and answer the "text" of the first block. */
  function ParseResponse(body: Value): (r: Result<Value, PyError>)
  {
    var dug :- General.SafeDig(body, ContentPath, Null, true);
    var contents := if Truthy(dug) then dug else Arr([]);
    var n :- PyLen(contents);
    if n == 0 then Err(ValueError(EmptyContentMessage))
    else
      var first :- PyFirst(contents);
      PyGetItem(first, "text")
  }

  /** When the path leads to a non-empty list whose first block has text,
      the answer is that text; later blocks play no part. */
  lemma ParseResponseFirstBlock(body: Value, blocks: seq<Value>)
    requires General.Reach(body, ContentPath) == Some(Arr(blocks))
    requires |blocks| > 0 && blocks[0].Obj? && "text" in blocks[0].fields
    ensures ParseResponse(body) == Ok(blocks[0].fields["text"])
  {
    General.SafeDigFound(body, ContentPath, Null, true);
  }

  /** A content value that is empty or otherwise falsy (an empty list,
      `None`, an empty string) is refused with the empty-content error. */
  lemma ParseResponseEmpty(body: Value, content: Value)
    requires General.Reach(body, ContentPath) == Some(content)
    requires !Truthy(content)
    ensures ParseResponse(body) == Err(ValueError(EmptyContentMessage))
  {
    General.SafeDigFound(body, ContentPath, Null, true);
  }

  /** A missing key on the way raises `ValueError` naming the keys up to and
      including the missing one. */
  lemma ParseResponseMissing(body: Value, k: nat)
    requires k < |ContentPath|
    requires General.Reach(body, ContentPath[..k]).Some? && General.Reach(body, ContentPath[..k]).value.Obj?
    requires ContentPath[k] !in General.Reach(body, ContentPath[..k]).value.fields
    ensures ParseResponse(body) == Err(ValueError(General.MissingKeyMessage(ContentPath[..k + 1])))
  {
    General.SafeDigMissing(body, ContentPath, Null, k);
  }

  /** `NovaClientFactory`: holds at most one client. */
  datatype Factory = Factory(client: Option<NovaClient>)

  const NewFactory := Factory(None)

  /** `get_client(bedrock_client)`: the first call builds a client with
      temperature 0.4, 1000 tokens and the `NOVA_INFERENCE_PROFILE` setting;
      later calls return that same client. */
  function GetClient(f: Factory, bedrock: BedrockHandle, env: Env): (r: (NovaClient, Factory))
    ensures r.1 == Factory(Some(r.0))
    ensures f.client.Some? ==> r.0 == f.client.value
    ensures f.client.None? ==> r.0 == NovaClient(bedrock, GetEnv(env, "NOVA_INFERENCE_PROFILE"), 0.4, 1000)
  {
    match f.client
    case Some(c) => (c, f)
    case None =>
      var c := NovaClient(bedrock, GetEnv(env, "NOVA_INFERENCE_PROFILE"), 0.4, 1000);
      (c, Factory(Some(c)))
  }

  /** Asking again, with any runtime handle and any environment, returns
      the client of the first call and leaves the factory as it was. */
  lemma GetClientMemoises(f: Factory, b1: BedrockHandle, e1: Env, b2: BedrockHandle, e2: Env)
    ensures GetClient(GetClient(f, b1, e1).1, b2, e2) == GetClient(f, b1, e1)
  {
  }
}

=== FILE: prompts.dfy ===
/** The two prompt templates that turn an email into text for the language
    model: the tagged one of src/email_summarizer/utils/email_utils.py and the
    plain one that src/email_summarizer/utils/ai_utils.py defines and uses. */
module Prompts {
  import opened Wrappers
  import opened Text
  import opened Models

  /** How an f-string renders a `str | None` field: `None` becomes the
      literal text "None". */
  function PyStr(o: Option<string>): (r: string)
    ensures o.None? ==> r == "None"
    ensures o.Some? ==> r == o.value
  {
    match o
    case Some(s) => s
    case None => "None"
  }

  /** The tagged template of email_utils.py, character for character (the
      f-string written out line by line). */
  function EmailToPrompt(e: Email): string {
    SenderLine(e) + SubjectLine(e) + BodyLines(e)
  }

  /** The tagged prompt always carries the sender tag, the subject tag with
      the snippet, and a body section (with "None" for a missing body). */
  lemma TaggedPromptTags(e: Email)
    ensures Contains(EmailToPrompt(e), "<sender>" + e.sender + "</sender>")
    ensures Contains(EmailToPrompt(e), "<subject>" + e.subject + " - " + e.snippet + "</subject>")
    ensures Contains(EmailToPrompt(e), "<body>" + "\n" + "        " + PyStr(e.bodyPreview) + "\n" + "    </body>")
  {
    SenderTagPresent(e);
    SubjectTagPresent(e);
    BodyBlockPresent(e);
  }

  function SenderLine(e: Email): string {
    "\n" + "    Sender: <sender>" + e.sender + "</sender>"
  }

  function SubjectLine(e: Email): string {
    "\n" + "    Subject: <subject>" + e.subject + " - " + e.snippet + "</subject>"
  }

  function BodyLines(e: Email): string {
    "\n" + "    Body:" + "\n" + "    <body>" + "\n" + "        " + PyStr(e.bodyPreview) + "\n" + "    </body>" + "\n" + "    "
  }

  lemma SenderTagPresent(e: Email)
    ensures Contains(EmailToPrompt(e), "<sender>" + e.sender + "</sender>")
  {
    var tag := "<sender>" + e.sender + "</sender>";
    var front := "\n" + "    Sender: ";
    assert SenderLine(e) == front + tag by {
      assert "    Sender: <sender>" == "    Sender: " + "<sender>";
    }
    var rest := SubjectLine(e) + BodyLines(e);
    assert EmailToPrompt(e) == front + tag + rest;
    ContainsInfix(front, tag, rest);
  }

  lemma SubjectTagPresent(e: Email)
    ensures Contains(EmailToPrompt(e), "<subject>" + e.subject + " - " + e.snippet + "</subject>")
  {
    var tag := "<subject>" + e.subject + " - " + e.snippet + "</subject>";
    var lead := "\n" + "    Subject: ";
    assert SubjectLine(e) == lead + tag by {
      assert "    Subject: <subject>" == "    Subject: " + "<subject>";
    }
    var front := SenderLine(e) + lead;
    var rest := BodyLines(e);
    assert EmailToPrompt(e) == front + tag + rest;
    ContainsInfix(front, tag, rest);
  }

  lemma BodyBlockPresent(e: Email)
    ensures Contains(EmailToPrompt(e), "<body>" + "\n" + "        " + PyStr(e.bodyPreview) + "\n" + "    </body>")
  {
    var tag := "<body>" + "\n" + "        " + PyStr(e.bodyPreview) + "\n" + "    </body>";
    var lead := "\n" + "    Body:" + "\n" + "    ";
    var rest := "\n" + "    ";
    assert BodyLines(e) == lead + tag + rest by {
      assert "    <body>" == "    " + "<body>";
    }
    var front := SenderLine(e) + SubjectLine(e) + lead;
    assert EmailToPrompt(e) == front + tag + rest;
    ContainsInfix(front, tag, rest);
  }

  lemma ContainsInfix(a: string, x: string, b: string)
    ensures Contains(a + x + b, x)
  {
    assert (a + x + b)[|a|..|a| + |x|] == x;
    ContainsAt(a + x + b, x, |a|);
  }

  /** The plain template of ai_utils.py, lines 19-27, character for character
      (the f-string written out line by line). */
  function AiEmailToPrompt(e: Email): string {
    PlainSenderLine(e) + PlainSubjectLine(e) + PlainBodyLines(e)
  }

  function PlainSenderLine(e: Email): string {
    "\n" + "    Sender: " + e.sender
  }

  function PlainSubjectLine(e: Email): string {
    "\n" + "    Subject: " + e.subject + " - " + e.snippet
  }

  function PlainBodyLines(e: Email): string {
    "\n" + "    Body:" + "\n" + "      <body>" + "\n" + "        " + PyStr(e.bodyPreview) + "\n" + "      </body>" + "\n" + "    "
  }

  /** Where each field sits on its line in one of the two templates. */
  datatype Layout = Layout(
    senderPre: string, senderPost: string,
    subjectPre: string, subjectPost: string,
    bodyOpen: string, bodyClose: string)

  const TaggedLayout := Layout(
    "    Sender: <sender>", "</sender>",
    "    Subject: <subject>", "</subject>",
    "    <body>", "    </body>")

  const PlainLayout := Layout(
    "    Sender: ", "",
    "    Subject: ", "",
    "      <body>", "      </body>")

  /** The three things a prompt carries: the sender, the "subject - snippet"
      line and the body text. */
  datatype PromptFields = PromptFields(sender: string, subjectLine: string, body: string)

  function FieldsOf(e: Email): PromptFields {
    PromptFields(e.sender, e.subject + " - " + e.snippet, PyStr(e.bodyPreview))
  }

  /** The eight lines of a prompt in the given layout. */
  function PromptLines(l: Layout, f: PromptFields): seq<string> {
    [ "",
      l.senderPre + f.sender + l.senderPost,
      l.subjectPre + f.subjectLine + l.subjectPost,
      "    Body:",
      l.bodyOpen,
      "        " + f.body,
      l.bodyClose,
      "    " ]
  }

  /** The tagged template is its eight lines joined by newlines. */
  lemma TaggedPromptIsLines(e: Email)
    ensures EmailToPrompt(e) == Join(PromptLines(TaggedLayout, FieldsOf(e)), '\n')
  {
    var ls := PromptLines(TaggedLayout, FieldsOf(e));
    JoinEightGrouped(ls, '\n');
    assert SenderLine(e) == ls[0] + ['\n'] + ls[1];
    assert SubjectLine(e) == ['\n'] + ls[2];
    assert BodyLines(e) == ['\n'] + ls[3] + ['\n'] + ls[4] + ['\n'] + ls[5] + ['\n'] + ls[6] + ['\n'] + ls[7];
  }

  /** The plain template is its eight lines joined by newlines. */
  lemma PlainPromptIsLines(e: Email)
    ensures AiEmailToPrompt(e) == Join(PromptLines(PlainLayout, FieldsOf(e)), '\n')
  {
    var ls := PromptLines(PlainLayout, FieldsOf(e));
    JoinEightGrouped(ls, '\n');
    assert PlainSenderLine(e) == ls[0] + ['\n'] + ls[1];
    assert PlainSubjectLine(e) == ['\n'] + ls[2];
    assert PlainBodyLines(e) == ['\n'] + ls[3] + ['\n'] + ls[4] + ['\n'] + ls[5] + ['\n'] + ls[6] + ['\n'] + ls[7];
  }

  lemma JoinEight(ls: seq<string>, sep: char)
    requires |ls| == 8
    ensures Join(ls, sep) == ls[0] + [sep] + ls[1] + [sep] + ls[2] + [sep] + ls[3] + [sep]
      + ls[4] + [sep] + ls[5] + [sep] + ls[6] + [sep] + ls[7]
  {
    assert ls[7..] == [ls[7]];
    assert ls[6..][1..] == ls[7..];
    assert ls[5..][1..] == ls[6..];
    assert ls[4..][1..] == ls[5..];
    assert ls[3..][1..] == ls[4..];
    assert ls[2..][1..] == ls[3..];
    assert ls[1..][1..] == ls[2..];
    assert Join(ls[6..], sep) == ls[6] + [sep] + ls[7];
    assert Join(ls[5..], sep) == ls[5] + [sep] + Join(ls[6..], sep);
    assert Join(ls[4..], sep) == ls[4] + [sep] + Join(ls[5..], sep);
    assert Join(ls[3..], sep) == ls[3] + [sep] + Join(ls[4..], sep);
    assert Join(ls[2..], sep) == ls[2] + [sep] + Join(ls[3..], sep);
    assert Join(ls[1..], sep) == ls[1] + [sep] + Join(ls[2..], sep);
  }

  /** `JoinEight` with the lines grouped as the two templates write them. */
  lemma JoinEightGrouped(ls: seq<string>, sep: char)
    requires |ls| == 8
    ensures Join(ls, sep) == (ls[0] + [sep] + ls[1]) + ([sep] + ls[2])
      + ([sep] + ls[3] + [sep] + ls[4] + [sep] + ls[5] + [sep] + ls[6] + [sep] + ls[7])
  {
    JoinEight(ls, sep);
  }

  /** The text strictly between a known prefix and a known suffix of a line. */
  function StripAround(line: string, pre: string, post: string): (r: Option<string>)
    ensures r.Some? ==> line == pre + r.value + post
  {
    if |pre| + |post| <= |line| && line[..|pre|] == pre && line[|line| - |post|..] == post
    then
      var inner := line[|pre|..|line| - |post|];
      assert line == line[..|pre|] + inner + line[|line| - |post|..];
      Some(inner)
    else None
  }

  lemma StripAroundOf(pre: string, x: string, post: string)
    ensures StripAround(pre + x + post, pre, post) == Some(x)
  {
    var line := pre + x + post;
    assert line[..|pre|] == pre;
    assert line[|line| - |post|..] == post;
    assert line[|pre|..|line| - |post|] == x;
  }

  /** Reads the three fields back out of a prompt in the given layout. */
  function ParsePrompt(l: Layout, s: string): (r: Option<PromptFields>)
    ensures r.Some? ==> Join(PromptLines(l, r.value), '\n') == s
  {
    var ls := Split(s, '\n');
    JoinSplit(s, '\n');
    if |ls| != 8 || ls[0] != "" || ls[3] != "    Body:" || ls[4] != l.bodyOpen
      || ls[6] != l.bodyClose || ls[7] != "    " then None
    else
      match (StripAround(ls[1], l.senderPre, l.senderPost),
             StripAround(ls[2], l.subjectPre, l.subjectPost),
             StripAround(ls[5], "        ", ""))
      case (Some(sender), Some(subjectLine), Some(body)) =>
        assert ls[5] == "        " + body + "";
        assert "        " + body + "" == "        " + body;
        assert ls == [ls[0], ls[1], ls[2], ls[3], ls[4], ls[5], ls[6], ls[7]];
        assert PromptLines(l, PromptFields(sender, subjectLine, body)) == ls;
        Some(PromptFields(sender, subjectLine, body))
      case _ => None
  }

  predicate SingleLine(s: string) {
    '\n' !in s
  }

  /** A layout whose fixed parts hold no newline. */
  predicate LayoutIsFlat(l: Layout) {
    SingleLine(l.senderPre) && SingleLine(l.senderPost) && SingleLine(l.subjectPre)
      && SingleLine(l.subjectPost) && SingleLine(l.bodyOpen) && SingleLine(l.bodyClose)
  }

  lemma {:induction false} ParsePromptLines(l: Layout, f: PromptFields)
    requires LayoutIsFlat(l)
    requires SingleLine(f.sender) && SingleLine(f.subjectLine) && SingleLine(f.body)
    ensures ParsePrompt(l, Join(PromptLines(l, f), '\n')) == Some(f)
  {
    var ls := PromptLines(l, f);
    forall i | 0 <= i < |ls|
      ensures '\n' !in ls[i]
    {
    }
    SplitJoin(ls, '\n');
    StripAroundOf(l.senderPre, f.sender, l.senderPost);
    StripAroundOf(l.subjectPre, f.subjectLine, l.subjectPost);
    StripAroundOf("        ", f.body, "");
    assert "        " + f.body + "" == "        " + f.body;
  }

  /** The tagged prompt loses nothing: sender, "subject - snippet" and body
      (or "None") can be read back, each from its own line in that order,
      as long as none of them spans several lines. */
  lemma TaggedPromptRoundTrip(e: Email)
    requires SingleLine(e.sender) && SingleLine(e.subject) && SingleLine(e.snippet)
    requires SingleLine(PyStr(e.bodyPreview))
    ensures ParsePrompt(TaggedLayout, EmailToPrompt(e)) == Some(FieldsOf(e))
  {
    FieldsAreSingleLines(e);
    assert LayoutIsFlat(TaggedLayout);
    TaggedPromptIsLines(e);
    ParsePromptLines(TaggedLayout, FieldsOf(e));
  }

  /** An email whose parts hold no newline gives prompt fields without one. */
  lemma FieldsAreSingleLines(e: Email)
    requires SingleLine(e.sender) && SingleLine(e.subject) && SingleLine(e.snippet)
    requires SingleLine(PyStr(e.bodyPreview))
    ensures var f := FieldsOf(e); SingleLine(f.sender) && SingleLine(f.subjectLine) && SingleLine(f.body)
  {
  }

  /** The same for the plain template of ai_utils.py. */
  lemma PlainPromptRoundTrip(e: Email)
    requires SingleLine(e.sender) && SingleLine(e.subject) && SingleLine(e.snippet)
    requires SingleLine(PyStr(e.bodyPreview))
    ensures ParsePrompt(PlainLayout, AiEmailToPrompt(e)) == Some(FieldsOf(e))
  {
    FieldsAreSingleLines(e);
    assert LayoutIsFlat(PlainLayout);
    PlainPromptIsLines(e);
    ParsePromptLines(PlainLayout, FieldsOf(e));
  }
}

=== FILE: settings.dfy ===
/** The process environment and the Python idioms used to read it:
    `os.environ[name]`, `os.getenv(name)` and `a or b` on `str | None`. */
module Settings {
  import opened Wrappers

  /** The process environment. */
  type Env = map<string, string>

  /** `os.getenv(name)`: `None` for an unset name. */
  function GetEnv(env: Env, name: string): (r: Option<string>)
    ensures r.Some? <==> name in env
    ensures r.Some? ==> r.value == env[name]
  {
    if name in env then Some(env[name]) else None
  }

  /** Python truthiness of a `str | None`. */
  predicate Given(s: Option<string>) {
    s.Some? && s.value != ""
  }

  /** Python `a or b` on `str | None`. */
  function OrElse(a: Option<string>, b: Option<string>): (r: Option<string>)
    ensures Given(a) ==> r == a
    ensures !Given(a) ==> r == b
  {
    if Given(a) then a else b
  }
}

=== FILE: sonnet.dfy ===
/** The older `BedrockReasoningClient` of
    src/email_summarizer/services/sonnet_client.py: optional settings read
    with `os.getenv`, a reasoning request, and an unvalidated answer pair. */
module Sonnet {
  import opened Wrappers
  import opened Json
  import opened Converse
  import opened Settings
  import ModelInfo

  /** A constructed client's settings; region and default id may be `None`. */
  datatype Client = Client(regionName: Option<string>, profileName: string, defaultModelId: Option<string>)

  /** The constructor (the boto3 session aside): nothing here raises. */
  function NewClient(region: Option<string>, profile: Option<string>, modelId: Option<string>, env: Env): (c: Client)
    ensures c.regionName == OrElse(region, GetEnv(env, "AWS_REGION"))
    ensures c.profileName == if Given(profile) then profile.value else "data_reply"
    ensures Given(modelId) ==> c.defaultModelId == modelId
    ensures !Given(modelId) ==> c.defaultModelId == GetEnv(env, "SONNET_MODEL_ID")
    ensures !Given(modelId) ==>
      (c.defaultModelId.Some? <==> "SONNET_MODEL_ID" in env)
  {
    Client(OrElse(region, GetEnv(env, "AWS_REGION")),
           if Given(profile) then profile.value else "data_reply",
           OrElse(modelId, GetEnv(env, "SONNET_MODEL_ID")))
  }

  /** The keyword arguments of `client.converse(...)`; this client passes no
      system prompt, and `modelId` may be `None`. */
  datatype Request = Request(modelId: Option<string>, messages: Value, inferenceConfig: Value, additionalFields: Value)

  function BuildRequest(c: Client, prompt: string, budget: int, modelId: Option<string>, temperature: real): (q: Request)
    ensures q.modelId == OrElse(modelId, c.defaultModelId)
    ensures At(q.messages, [Index(0), Key("role")]) == Some(Str("user"))
    ensures At(q.messages, [Index(0), Key("content"), Index(0), Key("text")]) == Some(Str(prompt))
    ensures At(q.additionalFields, [Key("thinking"), Key("type")]) == Some(Str("enabled"))
    ensures At(q.additionalFields, [Key("thinking"), Key("budget_tokens")]) == Some(Int(budget))
    ensures At(q.inferenceConfig, [Key("temperature")]) == Some(Float(temperature))
  {
    var config := Obj(map["temperature" := Float(temperature)]);
    assert At(config, [Key("temperature")]) == Some(Float(temperature));
    Request(OrElse(modelId, c.defaultModelId), Conversation(prompt), config, ReasoningConfig(budget))
  }

  /** `invoke_reasoning`: the `(reasoning_text, response_text)` pair, taken
      last-block-wins and left unvalidated. */
  method InvokeReasoning(c: Client, prompt: string, budget: int, modelId: Option<string>, temperature: real,
                         converse: Request -> Value)
    returns (request: Request, r: Result<(Option<Value>, Option<Value>), PyError>)
    ensures request == BuildRequest(c, prompt, budget, modelId, temperature)
    ensures ContentBlocks(converse(request)).Err? ==> r == Err(ContentBlocks(converse(request)).error)
    ensures r.Ok? ==> ContentBlocks(converse(request)).Ok?
    ensures r.Ok? ==> r.value == (LastReasoning(ContentBlocks(converse(request)).value),
                                  LastText(ContentBlocks(converse(request)).value))
    ensures ContentBlocks(converse(request)).Ok?
      && (forall i :: 0 <= i < |ContentBlocks(converse(request)).value| ==> Readable(ContentBlocks(converse(request)).value[i]))
      ==> r.Ok?
  {
    request := BuildRequest(c, prompt, budget, modelId, temperature);
    var blocks := ContentBlocks(converse(request));
    if blocks.Err? {
      return request, Err(blocks.error);
    }
    var scanned := ScanContentBlocks(blocks.value);
    if scanned.Err? {
      return request, Err(scanned.error);
    }
    return request, Ok((scanned.value.reasoning, scanned.value.response));
  }

  /** `get_model_info(model_id)`: fails with `AttributeError` when neither
      the argument nor the default gives an id. */
  function GetModelInfo(c: Client, modelId: Option<string>): (r: Result<ModelInfo.ModelInfo, PyError>)
    ensures r.Err? <==> OrElse(modelId, c.defaultModelId).None?
    ensures r.Ok? ==> r.value.modelId == OrElse(modelId, c.defaultModelId).value && r.value.region == c.regionName
    ensures r.Ok? ==> r.value.provider == ModelInfo.Provider(r.value.modelId)
    ensures r.Ok? ==> r.value.version == ModelInfo.Version(r.value.modelId)
  {
    ModelInfo.Describe(modelId, c.defaultModelId, c.regionName)
  }
}

=== FILE: text.dfy ===
/** The few Python string operations the triage flow relies on: substring tests,
    ASCII lower-casing, `str.split` / `str.join` on one separator character,
    and `str(int)`. */
module Text {

  predicate IsPrefix(p: string, s: string) {
    |p| <= |s| && s[..|p|] == p
  }

  /** Python's `sub in s` for strings. */
  predicate Contains(s: string, sub: string)
    decreases |s|
  {
    IsPrefix(sub, s) || (|s| > 0 && Contains(s[1..], sub))
  }

  /** `Contains` finds an occurrence wherever it starts. */
  lemma {:induction false} ContainsAt(s: string, sub: string, k: nat)
    requires k + |sub| <= |s| && s[k..k + |sub|] == sub
    ensures Contains(s, sub)
    decreases k
  {
    if k == 0 {
      assert s[..|sub|] == s[0..|sub|];
    } else {
      assert s[1..][k - 1..k - 1 + |sub|] == s[k..k + |sub|];
      ContainsAt(s[1..], sub, k - 1);
    }
  }

  /** Lower-casing of one character; only ASCII letters are mapped. */
  function LowerChar(c: char): char {
    if 'A' <= c <= 'Z' then (c as int - 'A' as int + 'a' as int) as char else c
  }

  /** Python's `s.lower()`, restricted to ASCII letters. */
  function Lower(s: string): string {
    seq(|s|, i requires 0 <= i < |s| => LowerChar(s[i]))
  }

  /** Python's `s.split(sep)` for a one-character separator: always at least
      one piece, and no piece contains the separator. */
  function Split(s: string, sep: char): (parts: seq<string>)
    ensures |parts| >= 1
    ensures forall i :: 0 <= i < |parts| ==> sep !in parts[i]
    decreases |s|
  {
    if s == [] then [""]
    else
      var rest := Split(s[1..], sep);
      if s[0] == sep then [""] + rest
      else [[s[0]] + rest[0]] + rest[1..]
  }

  /** Python's `sep.join(parts)` for a one-character separator. */
  function Join(parts: seq<string>, sep: char): string
    decreases |parts|
  {
    if |parts| == 0 then ""
    else if |parts| == 1 then parts[0]
    else parts[0] + [sep] + Join(parts[1..], sep)
  }

  lemma {:induction false} SplitWithoutSep(a: string, sep: char)
    requires sep !in a
    ensures Split(a, sep) == [a]
    decreases |a|
  {
    if a != [] {
      SplitWithoutSep(a[1..], sep);
      assert [a[0]] + a[1..] == a;
    }
  }

  lemma {:induction false} SplitAtFirstSep(a: string, b: string, sep: char)
    requires sep !in a
    ensures Split(a + [sep] + b, sep) == [a] + Split(b, sep)
    decreases |a|
  {
    var s := a + [sep] + b;
    if a == [] {
      assert s[1..] == b;
    } else {
      assert s[1..] == a[1..] + [sep] + b;
      SplitAtFirstSep(a[1..], b, sep);
      assert [a[0]] + a[1..] == a;
    }
  }

  /** Splitting undoes joining when no piece contains the separator. */
  lemma {:induction false} SplitJoin(parts: seq<string>, sep: char)
    requires |parts| >= 1
    requires forall i :: 0 <= i < |parts| ==> sep !in parts[i]
    ensures Split(Join(parts, sep), sep) == parts
    decreases |parts|
  {
    if |parts| == 1 {
      SplitWithoutSep(parts[0], sep);
    } else {
      SplitAtFirstSep(parts[0], Join(parts[1..], sep), sep);
      SplitJoin(parts[1..], sep);
      assert [parts[0]] + parts[1..] == parts;
    }
  }

  /** Joining undoes splitting. */
  lemma {:induction false} JoinSplit(s: string, sep: char)
    ensures Join(Split(s, sep), sep) == s
    decreases |s|
  {
    if s != [] {
      var rest := Split(s[1..], sep);
      JoinSplit(s[1..], sep);
      if s[0] != sep && |rest| > 1 {
        assert rest[1..][0] == rest[1];
        assert ([[s[0]] + rest[0]] + rest[1..])[1..] == rest[1..];
      }
    }
  }

  lemma {:induction false} JoinSnoc(parts: seq<string>, last: string, sep: char)
    requires |parts| >= 1
    ensures Join(parts + [last], sep) == Join(parts, sep) + [sep] + last
    decreases |parts|
  {
    if |parts| > 1 {
      assert (parts + [last])[1..] == parts[1..] + [last];
      JoinSnoc(parts[1..], last, sep);
    } else {
      assert (parts + [last])[1..] == [last];
    }
  }

  /** Python's `s.split(sep)[-1]`: the text after the last separator, or all
      of `s` when it holds none. */
  function LastSegment(s: string, sep: char): (seg: string)
    ensures sep !in seg
    ensures sep !in s ==> seg == s
    ensures sep in s ==> |seg| < |s| && s == s[..|s| - |seg| - 1] + [sep] + seg
  {
    var parts := Split(s, sep);
    var seg := parts[|parts| - 1];
    assert sep !in seg;
    JoinSplit(s, sep);
    if |parts| == 1 then
      seg
    else
      var init := parts[..|parts| - 1];
      assert init + [seg] == parts;
      JoinSnoc(init, seg, sep);
      assert s == Join(init, sep) + [sep] + seg;
      seg
  }

  /** The segment after the last separator is whatever follows a
      separator that has none after it. */
  lemma LastSegmentOf(a: string, b: string, sep: char)
    requires sep !in b
    ensures LastSegment(a + [sep] + b, sep) == b
  {
    var s := a + [sep] + b;
    assert s[|a|] == sep;
    var seg := LastSegment(s, sep);
    assert s == s[..|s| - |seg| - 1] + [sep] + seg;
    assert s[|s| - |seg| - 1] == sep;
    assert forall i :: 0 <= i < |b| ==> s[|a| + 1 + i] == b[i];
    if |seg| < |b| {
      assert false;
    } else if |seg| > |b| {
      assert false;
    }
    assert seg == s[|s| - |b|..] == b;
  }

  predicate IsDigit(c: char) {
    '0' <= c <= '9'
  }

  predicate AllDigits(s: string) {
    forall i :: 0 <= i < |s| ==> IsDigit(s[i])
  }

  function DigitChar(d: nat): char
    requires d < 10
  {
    ('0' as int + d) as char
  }

  function DigitValue(c: char): nat
    requires IsDigit(c)
  {
    c as int - '0' as int
  }

  /** Decimal rendering of a natural number, most significant digit first. */
  function NatToString(n: nat): (s: string)
    ensures |s| >= 1 && AllDigits(s)
    decreases n
  {
    if n < 10 then [DigitChar(n)] else NatToString(n / 10) + [DigitChar(n % 10)]
  }

  /** Reads a decimal numeral back. */
  function ParseNat(s: string): nat
    requires AllDigits(s)
    decreases |s|
  {
    if s == [] then 0 else ParseNat(s[..|s| - 1]) * 10 + DigitValue(s[|s| - 1])
  }

  lemma {:induction false} NatRoundTrip(n: nat)
    ensures ParseNat(NatToString(n)) == n
    decreases n
  {
    if n >= 10 {
      var s := NatToString(n);
      assert s[..|s| - 1] == NatToString(n / 10);
      NatRoundTrip(n / 10);
    }
  }

  /** A Python integer literal as `str(int)` writes it: an optional minus
      sign followed by at least one digit. */
  predicate IsIntLiteral(s: string) {
    if |s| >= 1 && s[0] == '-' then |s| >= 2 && AllDigits(s[1..]) else |s| >= 1 && AllDigits(s)
  }

  /** Python's `str(i)` for an integer. */
  function IntToString(i: int): (s: string)
    ensures IsIntLiteral(s)
  {
    if i < 0 then "-" + NatToString(-i) else NatToString(i)
  }

  function ParseInt(s: string): int
    requires IsIntLiteral(s)
  {
    if s[0] == '-' then -(ParseNat(s[1..]) as int) else ParseNat(s)
  }

  /** `str(i)` loses nothing: parsing it back gives `i`. */
  lemma IntRoundTrip(i: int)
    ensures ParseInt(IntToString(i)) == i
  {
    if i < 0 {
      var s := IntToString(i);
      assert s[1..] == NatToString(-i);
      NatRoundTrip(-i);
    } else {
      NatRoundTrip(i);
    }
  }
}

=== FILE: wrappers.dfy ===
/** Failure-compatible wrappers: Python's `None` and raised exceptions become values. */
module Wrappers {

  /** An optional value; `None` plays the role of Python's `None`. */
  datatype Option<+T> = None | Some(value: T) {

    /** The wrapped value, or `default` when there is none. */
    function GetOr(default: T): T {
      match this
      case Some(v) => v
      case None => default
    }
  }

  /** Either a value or the error a Python call would have raised. */
  datatype Result<+T, +E> = Ok(value: T) | Err(error: E) {

    predicate IsFailure() {
      Err?
    }

    function PropagateFailure<U>(): Result<U, E>
      requires Err?
    {
      Err(error)
    }

    function Extract(): T
      requires Ok?
    {
      value
    }
  }
}
